=== FILE: README.md ===
# DesignForCalligraphy: decision and formatting logic in Dafny

DesignForCalligraphy is a macOS app for building cutting designs from
template SVGs and AI-generated images. This project models the app's small,
self-contained decision and formatting functions as pure Dafny functions
over immutable datatypes, and proves what they promise:

- **Crop overlay** (`Crop`): corner-handle resizing, corner positions, the
  40-point minimum and in-frame clamping, the drag/commit gesture cycle,
  Reset, and the scaling of the crop rectangle into image pixels. Geometry
  is over `real` (`Geometry`).
- **Scale to fit** (`Enums`): the uniform factor that fits an SVG inside a
  box.
- **Template addresses and the SVG cache** (`Templates`, `Text`): the PNG
  and SVG URLs of a catalogue item, the download into `Library/SVGs`, and
  the cache lookup, with `Text` supplying the string operations they use
  (first-letter capitalisation, ASCII lower-casing, `%02d`, path
  components, `replacingOccurrences`).
- **Template grids** (`LegacyGrid`, `GatedGrid`): item ids, thumbnails,
  the free-tier gate and the premium badge.
- **Home screens** (`LegacyHome`, `Home`, over `Catalog`): category and
  subcategory selection, the subcategory menu, the grid shown, and the
  cache-or-download branch of a grid tap with the loader flag.
- **AI generation** (`Generator`, `Api`): the generate button's gate, the
  request body, response validation, and the saving of the generated SVG
  and PNG into `Library/AISvgs`.
- **History** (`History`): listing the generated SVGs newest first, each
  with its companion PNG, and deletion.
- **Subscriptions** (`Paywall`, `Subscription`, `Products`): period
  labels, plan rows and selection, product ordering, the entitlement scan,
  the persisted pro flag, and purchase outcomes.
- **Record store** (`UserStore`): the Core Data rows holding a
  JSON-encoded `UserSaveModel`, with fetch, save and first-match update.

These functions talk to the outside world in several ways. The model
handles each one as follows:

- **Inputs.** These are plain parameters:
  - whether a path exists (a `set<string>` of existing paths);
  - whether `URL(string:)` accepts a text (`parses`);
  - download and HTTP results;
  - store fetch and save success;
  - StoreKit products, entitlements and purchase results;
  - the current date;
  - fresh UUIDs.
- **Globals.** Values defined outside the modelled files are also
  parameters: `isAppfree`, `totalFreeGeneration`, `productIDs`,
  `isProuctPro`, and the generation counter behind
  `getCurrentPageCount`/`updateOrCreatePageCount`.
- **CGRect.** `width`, `height`, `minX`, `maxX`, `minY` and `maxY` are
  standardized, as CoreGraphics defines them. A rectangle keeps its signed
  size.

## Model

| member | source | states |
|---|---|---|
| Crop.ResizeRect | DesignForCalligraphy/View/NewAI/AIFontFinderView.swift:262-282 | The top-left handle moves the origin by the drag and shrinks the size by it. The top-right handle keeps x and grows the width. The bottom-left handle keeps y and grows the height. The bottom-right handle keeps the origin and adds the drag to both sides. Any index outside 0..3 leaves the rectangle unchanged. |
| Crop.HandleFollowsDrag | DesignForCalligraphy/View/NewAI/AIFontFinderView.swift:253-282 | For a rectangle that stays non-negative, the dragged handle moves exactly by the drag and the opposite corner stays put. |
| Crop.PositionForCorner | DesignForCalligraphy/View/NewAI/AIFontFinderView.swift:253-260 | Handle 0 sits at (minX, minY), 1 at (maxX, minY), 2 at (minX, maxY), and every other index at (maxX, maxY). Every handle lies on the standardized rectangle's bounds. |
| Crop.ClampRect | DesignForCalligraphy/View/NewAI/AIFontFinderView.swift:284-298 | The output's width and height are max(input, 40). Otherwise only the origin moves: a side of at least 40 is kept as it is. |
| Crop.ClampFitsAndSettles | DesignForCalligraphy/View/NewAI/AIFontFinderView.swift:284-298 | When the sides are non-negative and the enlarged size fits, the clamped rectangle lies inside the bounds, and clamping it again changes nothing. |
| Crop.ClampEscapesWithNegativeWidth | DesignForCalligraphy/View/NewAI/AIFontFinderView.swift:284-298 | Dragging the top-right handle 300 points left yields width -100. The clamp keeps that width, so the result starts at x = -100, outside the frame. |
| Crop.ClampStandardized | DesignForCalligraphy/View/NewAI/AIFontFinderView.swift:284-298 | Standardizing before the clamp puts every rectangle whose enlarged size fits inside the bounds with sides max(side, 40). The result is a fixed point of the clamp. |
| Crop.DragBodyKeepsSize | DesignForCalligraphy/View/NewAI/AIFontFinderView.swift:217-223 | Dragging the body offsets the captured rectangle and clamps it. A side that was already at least 40 keeps its length. |
| Crop.BodyDragChanged | DesignForCalligraphy/View/NewAI/AIFontFinderView.swift:217-223 | A body drag update keeps the captured rectangle, and the shown rectangle has the captured sides, each raised to at least 40. |
| Crop.CornerDragChanged | DesignForCalligraphy/View/NewAI/AIFontFinderView.swift:240-244 | A corner drag update keeps the captured rectangle, and both sides of the shown rectangle are at least 40. |
| Crop.DragEnded | DesignForCalligraphy/View/NewAI/AIFontFinderView.swift:224-226 | Ending a drag captures the shown rectangle, so the next body drag starts from it. |
| Crop.DragUpdatesDoNotAccumulate | DesignForCalligraphy/View/NewAI/AIFontFinderView.swift:217-247 | Each drag update starts again from the captured rectangle, so only the latest translation counts. A zero corner drag yields the clamped captured rectangle. |
| Crop.Reset | DesignForCalligraphy/View/NewAI/AIFontFinderView.swift:163-165 | Reset shows (80, 50, 200, 200) but leaves the captured rectangle as it was. |
| Crop.ResetIsUndoneByNextDrag | DesignForCalligraphy/View/NewAI/AIFontFinderView.swift:163-230 | After a reset, a 1-point drag jumps back to the pre-reset rectangle: (10,10,100,100) becomes (11,10,100,100), not (81,50,200,200). |
| Crop.ResetCaptured | DesignForCalligraphy/View/NewAI/AIFontFinderView.swift:228-230 | A reset that also captures the default makes every later body drag start from (80, 50, 200, 200). |
| Crop.PixelRect | DesignForCalligraphy/View/NewAI/AIFontFinderView.swift:189-196 | x and width are scaled by pixelWidth/500, y and height by pixelHeight/280, so an image of exactly 500×280 pixels gets the display rectangle back. |
| Crop.PixelRectInverts | DesignForCalligraphy/View/NewAI/AIFontFinderView.swift:189-196 | Scaling x and width by pixelWidth/500, and y and height by pixelHeight/280, is undone by the inverse factors, so no crop information is lost. |
| Crop.PixelRectFits | DesignForCalligraphy/View/NewAI/AIFontFinderView.swift:189-196 | A crop inside the 500×280 frame maps to a rectangle inside the image. |
| Crop.DefaultPixelRect | DesignForCalligraphy/View/NewAI/AIFontFinderView.swift:189-196 | The default crop on a 1000×560 image is the pixel rectangle (160, 100, 400, 400). |
| Enums.ScaleToFit | DesignForCalligraphy/Models/Enums.swift:15-19 | An image with a non-positive width or height keeps its current scale. |
| Enums.ScaleToFitIsLargestFit | DesignForCalligraphy/Models/Enums.swift:15-19 | For a positive size, the scale fits both sides, fills one of them exactly, keeps the aspect ratio, and is at least every other factor that fits. |
| Text.Capitalized | DesignForCalligraphy/Models/Constants.swift:9-9 | Only the first character is upper-cased and the rest is untouched. An empty id stays empty. |
| Text.ZeroPadded2 | View/MainView.swift:53-53 | `%02d` gives at least two digits that read back as the number. Numbers from 10 up print unpadded. |
| Text.DecimalInjective | DesignForCalligraphy/View/MainView.swift:58-58 | Distinct numbers print as distinct texts, padded or not. |
| Text.LastPathComponentOfAppended | DesignForCalligraphy/Models/Constants.swift:33-33 | A non-empty name without `/`, appended to any folder, is read back intact as the last path component. |
| Templates.SvgUrl | DesignForCalligraphy/Models/Constants.swift:7-11 | The SVG address is the category/subcategory folder under the templates base plus the file name `<Capitalized id>_20-01.svg`. |
| Templates.SvgUrlShape | DesignForCalligraphy/Models/Constants.swift:7-11 | Every SVG address starts with the templates base and ends with `_20-01.svg`. |
| Templates.SvgUrlLastComponent | DesignForCalligraphy/Models/Constants.swift:7-11 | For an id without `/`, the address's last path component is exactly the SVG file name. |
| Templates.PngUrlShape | DesignForCalligraphy/Models/Constants.swift:3-6 | The PNG address lies under the templates base and ends with the item id and `.png`. |
| Templates.PngUrl | DesignForCalligraphy/Models/Constants.swift:3-6 | For an item id without `/`, the last path component of the PNG address is `<item>.png`. |
| Templates.CachedFile | DesignForCalligraphy/Models/Constants.swift:58-68 | The lookup returns `Library/SVGs/<last component>` exactly when that file exists, and nothing otherwise. |
| Templates.DownloadSvg | DesignForCalligraphy/Models/Constants.swift:15-57 | An unparseable URL fails before anything else happens. A failed folder creation fails without starting the download. The network task starts exactly when the URL parses and the folder exists. The download succeeds exactly when, in addition, the task delivered a temporary file, the cache path was free and the move worked. A success returns the cache path, which is the only file added. A transfer error, a missing temporary file and a failed move each give their own error. Every failure leaves the files as they were. |
| Templates.DownloadThenCached | DesignForCalligraphy/Models/Constants.swift:22-68 | After a successful download, the cache lookup for the same URL finds exactly the reported file. A download never succeeds when the cached copy already exists. |
| Templates.TemplateCachePath | DesignForCalligraphy/Models/Constants.swift:58-68 | A template's cached copy is `Library/SVGs/<file name>`, whatever its category and subcategory. |
| Catalog.FirstIndexWhere | View/HomeView.swift:20-20 | `first(where:)` finds the first position whose key equals the wanted optional, and nothing when there is none. A nil key matches a nil wanted value. |
| Catalog.FirstWhere | View/HomeView.swift:36-37 | The element found is in the list and has the wanted key. Nothing is found exactly when no element has that key. When there is a first match, that element is the one returned. |
| Catalog.FirstIndexWhereByKeyOnly | View/HomeView.swift:81-81 | Two lists with the same keys, position by position, give the same lookup result, whatever else their elements hold. |
| Catalog.FirstSubCategoryId | View/HomeView.swift:75-75 | When there is an id, it belongs to the category's non-empty list and is the id of the list's first entry. A non-empty list always yields its first entry's id, and a missing or empty list yields none. |
| Catalog.GridIndices | View/MainView.swift:51-51 | `ForEach(0..<itemCount)` yields exactly the indices 0..itemCount-1 in order. A negative count traps. |
| LegacyGrid.Cells | View/MainView.swift:51-56 | The grid has exactly itemCount cells. Cell i passes the item id `<sub>_<%02d of i+1>` to the tap action, and its thumbnail is built from that same id. |
| LegacyGrid.ItemIdsDistinct | View/MainView.swift:53-55 | An item id is the subcategory, `_`, and at least two digits that read back as the 1-based position. Distinct cells never share an id. |
| GatedGrid.Tap | DesignForCalligraphy/View/MainView.swift:53-59 | The subscription sheet opens exactly when index > 2 and the app is not free. Otherwise the action receives the unpadded decimal index. |
| GatedGrid.BadgeMatchesGate | DesignForCalligraphy/View/MainView.swift:75-78 | The badge marks exactly the gated cells. Cells 0 to 2 are never gated, a free app gates nothing, and distinct allowed cells pass distinct items. |
| GatedGrid.ThumbnailIgnoresCase | DesignForCalligraphy/View/MainView.swift:93-98 | Thumbnails use lower-cased ids, so ids that lower-case alike share their thumbnails. |
| LegacyHome.SelectedCategory | View/HomeView.swift:19-21 | A category is found only for a selected id, and it is a listed category with that id. Nothing is found exactly when no id is selected or no category has it. Otherwise the first category with the id is found. |
| LegacyHome.SubMenu | View/HomeView.swift:19-33 | The subcategory menu appears only when the selected id resolves to a category that has a list, and then it shows that list. Without a selection it never appears. A selected id shows the list of the first category with that id. |
| LegacyHome.Grid | View/HomeView.swift:34-38 | The grid appears only when both ids resolve, the subcategory inside the category's list. It then has the subcategory's count, or 0 when the count is missing. When both ids resolve, the grid of the first matching category and subcategory is shown. |
| LegacyHome.LookupIgnoresTitles | View/HomeView.swift:36-37 | Lookup is by id: retitling categories changes neither the menu nor which subcategory the grid shows. |
| LegacyHome.SelectionRules | View/HomeView.swift:71-84 | On appear, the selection becomes the first category's id and its first subcategory. Choosing a different known category selects its first subcategory, and an unknown one keeps the subcategory. |
| LegacyHome.Tap | View/HomeView.swift:40-50 | A tap finds no download exactly when the cached copy of the generated address exists, and then it opens that copy on the canvas. If the address does not parse, the lookup uses the empty file URL. On a miss, only the loader changes and the generated address is downloaded. For an id without `/` and a parseable address, the copy looked for is `Library/SVGs/<file name>`. |
| LegacyHome.DownloadFinished | View/HomeView.swift:50-61 | The loader goes off on both outcomes. Only a success opens the downloaded file on the canvas. |
| LegacyHome.SecondTapHitsCache | View/HomeView.swift:40-61 | After a miss and a successful download, the canvas shows the file. Tapping the same item again finds that file and starts no new download. |
| Home.SubMenuList | DesignForCalligraphy/View/HomeView.swift:22-25 | The menu lists the subcategories of a category whose title equals the selection, and it is empty when no title matches. When a category matches, it lists the first match's subcategories. |
| Home.NilSelectionListsUntitled | DesignForCalligraphy/View/HomeView.swift:23-23 | Because two optionals are compared, a missing selection lists the subcategories of the first untitled category, wherever it is in the list. |
| Home.SelectedCategory | DesignForCalligraphy/View/HomeView.swift:30-31 | The selected title resolves only to a listed category with that title. Nothing is found exactly when no title is selected or no category has it. Otherwise the first category with the title is found. |
| Home.Grid | DesignForCalligraphy/View/HomeView.swift:30-38 | The grid appears only when the title resolves and the subcategory id resolves inside that category. It is labelled with those two values, and its count defaults to 0. When both resolve, the grid of the first matching category and subcategory is shown. |
| Home.SelectionRules | DesignForCalligraphy/View/HomeView.swift:72-91 | On appear or a change in the number of categories, the selection becomes the first category's title and its first subcategory. An empty catalogue changes nothing. A new known title selects its first subcategory, and an unknown one keeps the subcategory. |
| Home.Tap | DesignForCalligraphy/View/HomeView.swift:41-51 | A file at `Library/SVGs/<cat>/<sub>/svg_<item>.svg` opens the canvas without a download. Otherwise the loader turns on and the template SVG address is requested. |
| Home.LocalSvgPath | DesignForCalligraphy/View/HomeView.swift:106-115 | The local copy lies under `Library/SVGs/`, and for an item without `/` its last path component is `svg_<item>.svg`. |
| Home.DownloadFinished | DesignForCalligraphy/View/HomeView.swift:51-59 | A success opens the downloaded file on the canvas: the shown SVG becomes its path. A failure changes nothing. Neither touches the loader or the selection. |
| Home.LoaderStaysOnAfterFailedDownload | DesignForCalligraphy/View/HomeView.swift:49-59 | After a cache miss and a failed download, the loader is still shown and the home screen is still current. |
| Home.DownloadFinishedClearingLoader | DesignForCalligraphy/View/HomeView.swift:49-59 | The completion with the loader cleared: it is off after both outcomes, and only a success opens the file. |
| Home.TappedCellLocalName | DesignForCalligraphy/View/HomeView.swift:106-115 | An allowed tap on grid cell i looks for the local file `svg_<i>.svg`. |
| UserStore.Decode | DesignForCalligraphy/Models/CoreDataManager.swift:40-43 | A text decodes exactly when it is some model's encoding, and then it decodes to that model. |
| UserStore.DecodeEncode | DesignForCalligraphy/Models/CoreDataManager.swift:24-33 | Every model survives encoding and then decoding. |
| UserStore.DecodedModels | DesignForCalligraphy/Models/CoreDataManager.swift:40-43 | The compact map has at most one model per row, and each model comes from some row. |
| UserStore.DecodedModelsComplete | DesignForCalligraphy/Models/CoreDataManager.swift:40-43 | Every row that decodes contributes its model. |
| UserStore.DecodedModelsAllRows | DesignForCalligraphy/Models/CoreDataManager.swift:40-43 | When every row decodes, the models are the rows' models, position by position. |
| UserStore.DecodedModelsInRowOrder | DesignForCalligraphy/Models/CoreDataManager.swift:40-43 | The models of the rows before row i come first, then row i's model if it decodes, then the models of the rows after it. |
| UserStore.SaveContext | DesignForCalligraphy/Models/CoreDataManager.swift:77-85 | The context is untouched. The persisted rows are either the old ones or the context, and a successful save leaves them equal to the context. |
| UserStore.Fetch | DesignForCalligraphy/Models/CoreDataManager.swift:36-48 | A failing fetch returns no models. Otherwise every decodable row's model is returned, every returned model comes from a row, and there is at most one model per row. |
| UserStore.SaveUserModel | DesignForCalligraphy/Models/CoreDataManager.swift:24-33 | Exactly one row is appended and the rows before it are kept. It is persisted when the save succeeds, and the persisted rows are untouched when it fails. |
| UserStore.FetchAfterSave | DesignForCalligraphy/Models/CoreDataManager.swift:24-48 | The next fetch returns the previous models followed by the saved one. |
| UserStore.FetchAfterSaveGains | DesignForCalligraphy/Models/CoreDataManager.swift:24-48 | Read without order, the next fetch gains exactly the saved model. |
| UserStore.UpdatedRows | DesignForCalligraphy/Models/CoreDataManager.swift:55-69 | The row count is kept. Nothing is rewritten exactly when no decoded model matches. Otherwise the first row whose model decodes and matches gets the updated model's encoding, and every other row, undecodable ones included, stays as it was. |
| UserStore.DecodedUpdatedRows | DesignForCalligraphy/Models/CoreDataManager.swift:55-69 | Rewriting the rows replaces exactly the first matching model among the decoded ones. Undecodable rows are skipped. |
| UserStore.FetchAfterUpdate | DesignForCalligraphy/Models/CoreDataManager.swift:51-74 | After an update, a fetch returns the earlier models with only the first match replaced. When nothing matches, the store is not written at all. |
| UserStore.UpdateNeedsFetch | DesignForCalligraphy/Models/CoreDataManager.swift:51-74 | A failing fetch makes the update a no-op. |
| Api.BuildRequest | DesignForCalligraphy/ViewModels/ApiManager.swift:22-39 | The image type is "PNG" exactly when an image is attached. The data is present exactly when the conversion succeeded, and it is that data. |
| Api.TypeWithoutData | DesignForCalligraphy/ViewModels/ApiManager.swift:25-38 | A request announces an image without sending it exactly when the conversion failed. |
| Api.HandleResponse | DesignForCalligraphy/ViewModels/ApiManager.swift:42-67 | A status outside 200..<300 fails, and so does an undecodable body. Success means the first image has two parseable addresses, and returns them. Any other decoded body is an invalid response. |
| Api.OnlyFirstImageUsed | DesignForCalligraphy/ViewModels/ApiManager.swift:47-53 | Images after the first one never affect the outcome. |
| Api.EnsureFolder | DesignForCalligraphy/ViewModels/ApiManager.swift:131-139 | An existing `Library/AISvgs` is used untouched. A missing one is created, and failure is possible only when it was missing and creation failed. |
| Api.SaveSide | DesignForCalligraphy/ViewModels/ApiManager.swift:79-95 | Each download either saves its file into the folder or records an error, never both. It saves exactly when data arrived, the folder exists or was created, and the write worked. |
| Api.Combine | DesignForCalligraphy/ViewModels/ApiManager.swift:116-126 | Success requires no recorded error and both files saved, and returns them. Otherwise the error of the last failing handler is reported. |
| Api.CombineNeverInvalid | DesignForCalligraphy/ViewModels/ApiManager.swift:116-126 | Since each side saves or errs, the invalid-response fallback is unreachable. |
| Api.DownloadAndSaveBoth | DesignForCalligraphy/ViewModels/ApiManager.swift:72-127 | It succeeds exactly when both downloads deliver, both writes work, and the folder exists or the handler that ran first created it. It then returns `image_<uuid1>.svg` and `image_<uuid2>.png`, which both exist. |
| Api.DownloadAndSaveBothShared | DesignForCalligraphy/ViewModels/ApiManager.swift:85-103 | With one UUID for both files, a successful save yields SVG and PNG paths that differ only in their extension. |
| Generator.Press | DesignForCalligraphy/View/NewAI/AISVGGeneratorView.swift:55-88 | Offline, only the no-internet alert is set. With no purchase, no pro flag and the free count used up, only the premium sheet opens. Otherwise the loader turns on and the request carries the default negative prompt and the selected style. |
| Generator.Complete | DesignForCalligraphy/View/NewAI/AISVGGeneratorView.swift:64-79 | The loader goes off either way. A success stores both URLs, shows the save sheet and counts exactly one generation. A success leaves the error message alone. A failure shows its description, counts none and keeps both URLs and the save sheet as they were. Neither outcome touches the no-internet or premium flags. |
| Generator.Run | DesignForCalligraphy/View/NewAI/AISVGGeneratorView.swift:55-88 | Over a session of sequential presses, the counter rises by exactly the number of generations counted, at most one per outcome. |
| Generator.FreeLimitHolds | DesignForCalligraphy/View/NewAI/AISVGGeneratorView.swift:58-73 | Without a purchase or a pro flag, the counter never passes the free limit, or its starting value if that was higher. |
| Generator.PurchasedCountsAll | DesignForCalligraphy/View/NewAI/AISVGGeneratorView.swift:58-73 | With a connection and either a purchase or the pro flag, every successful outcome counts as one generation. |
| Generator.OfflineGeneratesNothing | DesignForCalligraphy/View/NewAI/AISVGGeneratorView.swift:85-87 | Offline, nothing is generated and the counter is unchanged. |
| History.MakeItem | DesignForCalligraphy/ViewModels/HistoryViewModel.swift:21-36 | An entry's name is the file's last component, its URL is the SVG, and its date is the file's date or else now. Its image is the companion PNG exactly when that file exists. |
| History.SvgFiles | DesignForCalligraphy/ViewModels/HistoryViewModel.swift:20-20 | Exactly the listed files whose lower-cased extension is `svg` are kept. |
| History.SvgFilesCount | DesignForCalligraphy/ViewModels/HistoryViewModel.swift:20-20 | Each SVG file is kept as often as it is listed, and no other file is kept. |
| History.SvgFilesAppend | DesignForCalligraphy/ViewModels/HistoryViewModel.swift:20-20 | The SVGs of two listings one after the other are the SVGs of the first followed by those of the second, so the filter keeps the listing order. |
| History.SvgItems | DesignForCalligraphy/ViewModels/HistoryViewModel.swift:19-36 | There is one entry per SVG file, in listing order. Entry i is an SVG named, identified and dated after the i-th SVG file, and it has a companion PNG exactly when that PNG exists. That companion is the PNG of the same name in the folder. |
| History.Insert | DesignForCalligraphy/ViewModels/HistoryViewModel.swift:37-37 | Inserting into a newest-first list keeps it newest first and adds exactly that entry. |
| History.SortNewestFirst | DesignForCalligraphy/ViewModels/HistoryViewModel.swift:37-37 | The sort puts the entries newest first and is a permutation of its input. |
| History.LoadHistory | DesignForCalligraphy/ViewModels/HistoryViewModel.swift:10-42 | A missing folder or a failed listing keeps the current entries. Otherwise the entries are a newest-first permutation of the SVG files' entries. |
| History.SvgFileHasEntry | DesignForCalligraphy/ViewModels/HistoryViewModel.swift:19-37 | Every SVG file of the listing has its entry. |
| History.EntryHasSvgFile | DesignForCalligraphy/ViewModels/HistoryViewModel.swift:19-37 | Every entry comes from an SVG file of the listing. |
| History.CompanionOfGeneratedSvg | DesignForCalligraphy/ViewModels/HistoryViewModel.swift:26-28 | The companion looked up for `image_<id>.svg` is `image_<id>.png` in the same folder. |
| History.GeneratedPngNotFound | DesignForCalligraphy/ViewModels/HistoryViewModel.swift:26-34 | With the two UUIDs used as written, the entry for a generated SVG is never paired with the PNG saved with it. |
| History.SharedIdCompanionFound | DesignForCalligraphy/ViewModels/HistoryViewModel.swift:26-34 | With one shared UUID, the entry for a generated SVG is paired with exactly the PNG saved with it. |
| History.RemoveIdentity | DesignForCalligraphy/ViewModels/HistoryViewModel.swift:56-56 | It keeps exactly the entries with a different id, and a newest-first list stays newest first. |
| History.Delete | DesignForCalligraphy/ViewModels/HistoryViewModel.swift:45-59 | A missing SVG or a failed SVG removal changes nothing. Otherwise the SVG is gone, and the PNG is gone too exactly when its removal worked; no other file changes. The entry is removed only once its existing PNG is removed too, and a failed PNG removal keeps the entry. A newest-first history stays newest first. |
| Paywall.PeriodLabel | DesignForCalligraphy/View/PremiumView.swift:187-197 | The label starts with the value's decimal text, followed by a space. |
| Paywall.PeriodLabelReadsBack | DesignForCalligraphy/View/PremiumView.swift:187-197 | The label reads back as value and unit. A known unit is plural exactly when the value is not 1, and an unknown unit reads `period` for any value. |
| Paywall.PeriodLabelInjective | DesignForCalligraphy/View/PremiumView.swift:187-197 | Equal labels mean equal values and equal unit words. |
| Paywall.Rows | DesignForCalligraphy/View/PremiumView.swift:87-102 | The four placeholder plans appear only while there are no products, each highlighted exactly when its title is selected. Otherwise there is one row per product, highlighted exactly when its id is the selected product's. |
| Paywall.OneOptionHighlighted | DesignForCalligraphy/View/PremiumView.swift:71-93 | `Monthly` is highlighted at first. A tap on a placeholder highlights it and only it. |
| Paywall.LoadProducts | DesignForCalligraphy/View/PremiumView.swift:249-261 | A load stores the products and selects the first one, or none if the list is empty. A failed load changes nothing. |
| Paywall.PurchaseSelected | DesignForCalligraphy/View/PremiumView.swift:267-277 | Without a selection, no purchase starts. |
| Paywall.SelectionRules | DesignForCalligraphy/View/PremiumView.swift:95-101 | After a load, the first row is highlighted and a purchase buys the first product. Tapping a product makes the purchase buy it and highlights the rows with its id. Before any load, nothing can be bought. |
| Subscription.OrderByIds | DesignForCalligraphy/ViewModels/PremiumViewModel.swift:72-74 | Each ordered product is a store product whose id is configured, and it is the store's first product with that id. |
| Subscription.OrderFollowsIds | DesignForCalligraphy/ViewModels/PremiumViewModel.swift:72-74 | The ordered products carry exactly the configured ids that the store returned, in configured order. |
| Subscription.LoadProducts | DesignForCalligraphy/ViewModels/PremiumViewModel.swift:66-86 | The ordered products are stored and, when there are any, the second is selected. With none, the selection stays. The load traps exactly when there is one product, and a failed load changes nothing. The purchased flag, the purchased ids and the store are never touched. |
| Subscription.LoadProductsTrapsOnOneProduct | DesignForCalligraphy/ViewModels/PremiumViewModel.swift:78-80 | A store offering only one configured product crashes the load. |
| Subscription.LoadProductsSafe | DesignForCalligraphy/ViewModels/PremiumViewModel.swift:76-81 | The corrected load never traps. It always selects a loaded product when there is one, and it agrees with the load as written wherever that succeeds. |
| Subscription.Select | DesignForCalligraphy/ViewModels/PremiumViewModel.swift:88-90 | The selection becomes the product. The products, the purchased flag, the purchased ids and the store do not change. |
| Subscription.SaveProStatus | DesignForCalligraphy/ViewModels/PremiumViewModel.swift:130-146 | When records are fetched, no row is added. When none are fetched, or the fetch fails, exactly one row holding the flag's encoding is appended. |
| Subscription.SaveProStatusStored | DesignForCalligraphy/ViewModels/PremiumViewModel.swift:130-146 | A new record is made when none is fetched, and otherwise the first is rewritten. The first fetched model then carries the flag and the models after it are kept. A failing fetch appends a record even when records exist. |
| Subscription.UpdatePurchaseStatus | DesignForCalligraphy/ViewModels/PremiumViewModel.swift:47-51 | The flag becomes the value, and products, selection and purchased ids stay. |
| Subscription.UpdateKeepsFlagsInStep | DesignForCalligraphy/ViewModels/PremiumViewModel.swift:47-51 | The shown flag and the first stored flag agree after an update. |
| Subscription.ScanStep | DesignForCalligraphy/ViewModels/PremiumViewModel.swift:54-63 | An unverified entitlement changes nothing. A verified one sets the flag to "not revoked" and adds or removes its own id only. With a working fetch, the shown flag and the first stored flag then agree. |
| Subscription.CheckPurchaseStatus | DesignForCalligraphy/ViewModels/PremiumViewModel.swift:53-65 | The scan touches neither products nor selection. |
| Subscription.ScanMeaning | DesignForCalligraphy/ViewModels/PremiumViewModel.swift:53-65 | An id is purchased exactly when its last verified entitlement is live, or, with none, when it was purchased before. The flag follows the last verified entitlement, and unverified ones are skipped. |
| Subscription.UnverifiedScanChangesNothing | DesignForCalligraphy/ViewModels/PremiumViewModel.swift:54-55 | A scan over unverified entitlements only changes nothing. |
| Subscription.ScanEndsInStep | DesignForCalligraphy/ViewModels/PremiumViewModel.swift:47-65 | Once the scan meets a verified entitlement, the shown flag and the first stored flag agree at its end, whatever they were before. |
| Subscription.NoVerifiedScanChangesNothing | DesignForCalligraphy/ViewModels/PremiumViewModel.swift:54-55 | Without a verified entitlement, the scan changes nothing. |
| Subscription.PurchaseSelected | DesignForCalligraphy/ViewModels/PremiumViewModel.swift:92-117 | Without a selection nothing happens and the completion never runs. With one it runs exactly once, and a pending result changes nothing. |
| Subscription.PurchaseStoresOutcome | DesignForCalligraphy/ViewModels/PremiumViewModel.swift:96-115 | Without a selection or while pending, nothing is stored. A cancelled, unknown or thrown purchase stores not-pro. A success stores what the last verified entitlement says (pro unless it is revoked), and pro when there is none. |

## Left out

- A scene graph, transform algebra and undo engine: the app has none. The canvas's undo, reset and redo buttons have empty actions (DesignForCalligraphy/View/CanvasView.swift:33-41), and its layer operations call an object whose source is not part of this model.
- SwiftUI layout, sheets, colours and the other screens: these are UI with no stated behaviour.
- Network, StoreKit streams, Core Data and the file manager: their results are inputs.
- Concurrency:
  - The two downloads of one generation are modelled as sequential handlers, with the order as an input.
  - The async purchase and entitlement tasks are modelled as sequential steps.
  - Generator.Run lets each generation complete before the next press.
- Rendering, image conversion to PNG, Base64 and `CGImage.cropping`: these are foreign calls. The crop is modelled up to the pixel rectangle, and an image without a `CGImage` is not modelled.
- The four-argument `downloadSVG(from:categoryID:subcategoryID:itemID:)` that the current home screen calls is not part of this model. Its outcome is an input of `Home.DownloadFinished`, and where it stores the file is unknown.
- `localSVGPath` also creates its folder. That side effect is not modelled.
- Text.Lowercased: only ASCII letters change case, while Swift's `lowercased()`/`uppercased()` follow Unicode.
- Text.Capitalized: only an ASCII first letter is upper-cased. Swift's `uppercased()` follows Unicode, so "ß" would become "SS" and lengthen the text.
- Text.LastPathComponent: paths are raw text, split at the last `/`. Foundation's `lastPathComponent` also ignores a query and a fragment, percent-decodes, and skips a trailing `/`. The modelled paths have none of these.
- Text.LastPathComponentOfAppended: stated for non-empty names only. `appendingPathComponent("")` leaves the folder's own name as the last component.
- UserStore.Fetch: the models come back in row insertion order. `User.fetchRequest()` has no sort descriptors, so Core Data promises no order. The order-dependent statements rest on that assumption: the saved model last in UserStore.FetchAfterSave, the "first match" of an update, and the first model in Subscription.SaveProStatusStored. UserStore.FetchAfterSaveGains states the save without order.
- History dates are whole numbers, while Swift's `Date` holds a `Double` count of seconds. Only their order is used.
- UserStore.Decode: it accepts only the texts `JSONEncoder` writes, `{"isPro":true}` and `{"isPro":false}`. `JSONDecoder` would also accept other spacings and key orders.
- UserStore.SaveContext: `hasChanges` is approximated as "context differs from the persisted rows", so rewriting a row with its own value saves nothing.
- Subscription.SaveProStatusStored: the two fetches inside one save share a single success flag.
- Crop.DragBodyKeepsSize: `offsetBy` is assumed to standardize the rectangle first, as in the open-source Foundation.
- `restorePurchases` (`AppStore.sync`) and `downloadGif`: StoreKit and network only.
- The period label prints Swift's `Int`. Its overflow does not arise.
- Generated UUIDs, the current date, and entry identities are inputs.

## Findings

| source | as written | input that shows it | evidently intended | confidence | as-written member | corrected member |
|---|---|---|---|---|---|---|
| DesignForCalligraphy/ViewModels/PremiumViewModel.swift:78-80 | a non-empty product list selects `sorted[1]` | the store returns one of the configured products | select the second product when there are two or more, else the only one | high, not executed | Subscription.LoadProductsTrapsOnOneProduct | Subscription.LoadProductsSafe |
| DesignForCalligraphy/ViewModels/ApiManager.swift:85-103 | the SVG and the PNG are named with two separate `UUID()` calls | any successful generation; the history looks up `image_<svg uuid>.png` | one UUID shared by both files, so the history finds the PNG | high, not executed | History.GeneratedPngNotFound | History.SharedIdCompanionFound |
| DesignForCalligraphy/View/NewAI/AIFontFinderView.swift:284-298 | `clampRect` sets only too-small sides, and a negative width counts as small via `width`, so the signed size stays | top-right handle of (80,50,200,200) dragged by (-300, 0) | standardize, then clamp, so the rectangle stays inside the frame | medium, not executed | Crop.ClampEscapesWithNegativeWidth | Crop.ClampStandardized |
| DesignForCalligraphy/View/NewAI/AIFontFinderView.swift:163-165 | Reset assigns only `cropRect` | move the crop to (10,10,100,100), press Reset, drag 1 point | Reset also re-captures the rectangle the next drag starts from | medium, not executed | Crop.ResetIsUndoneByNextDrag | Crop.ResetCaptured |
| DesignForCalligraphy/View/HomeView.swift:49-59 | the download completion never clears `showLoader` | a cache miss followed by a failed download | clear the loader on both outcomes, as the earlier home screen does | high, not executed | Home.LoaderStaysOnAfterFailedDownload | Home.DownloadFinishedClearingLoader |

=== FILE: api.dfy ===
/** The image-generation client (`ApiManager.swift`): the request body, the
    handling of the service's response, and the download of the generated
    SVG and PNG into `Library/AISvgs`. The HTTP exchange, the downloads and
    the file writes are inputs; `URL(string:)` is the parameter `parses`;
    the UUIDs naming the saved files are inputs too. */
module Api {
  import opened Wrappers
  import opened Text

  const Endpoint: string := "https://api.svg.io/v1/generate-image"

  const DefaultNegativePrompt: string := "blurry, low resolution, distorted"

  /** The image attached to a request: none, one that could not be turned
      into PNG data, or one whose PNG data has this base64 text. */
  datatype ImageInput = NoImage | Unconvertible | Converted(base64: string)

  datatype GenerateImageRequest = GenerateImageRequest(prompt: string, negativePrompt: string, style: Option<string>,
                                                       initialImage: Option<string>, initialImageType: Option<string>)

  /** The request body: the type is `"PNG"` whenever an image is attached,
      and the data is present only when the conversion succeeded. */
  function BuildRequest(prompt: string, negativePrompt: string, style: Option<string>, image: ImageInput): (r: GenerateImageRequest)
    ensures r.prompt == prompt && r.negativePrompt == negativePrompt && r.style == style
    ensures r.initialImageType == (if image.NoImage? then None else Some("PNG"))
    ensures r.initialImage.Some? <==> image.Converted?
    ensures r.initialImage.Some? ==> r.initialImage.value == image.base64
  {
    GenerateImageRequest(prompt, negativePrompt, style,
                         if image.Converted? then Some(image.base64) else None,
                         if image != NoImage then Some("PNG") else None)
  }

  /** A request announces an image without sending it exactly when the
      attached image could not be converted; a request without an image
      says nothing about one. */
  lemma TypeWithoutData(prompt: string, negativePrompt: string, style: Option<string>, image: ImageInput)
    ensures var r := BuildRequest(prompt, negativePrompt, style, image);
            (r.initialImageType.Some? && r.initialImage.None?) <==> image == Unconvertible
    ensures var r := BuildRequest(prompt, negativePrompt, style, image);
            r.initialImage.Some? ==> r.initialImageType == Some("PNG")
  {
  }

  /** One generated image in the response. */
  datatype GeneratedImage = GeneratedImage(svgUrl: Option<string>, pngUrl: Option<string>)

  /** The HTTP response: its status and the decoded `data` list, `None`
      when the body does not decode. */
  datatype HttpResponse = HttpResponse(status: int, data: Option<seq<GeneratedImage>>)

  /** Why a download or a write failed. */
  datatype SaveError = NetworkError(reason: string) | FolderNotCreated | WriteFailed

  datatype ApiError = InvalidResponse | BadStatus(code: int) | Undecodable | SaveFailed(cause: SaveError)

  /** The response handling: a status outside 200..<300 or an undecodable
      body fails; otherwise the first image's two addresses are used, and a
      missing entry, a missing address or one that does not parse is an
      invalid response. On success the two remote addresses to download. */
  function HandleResponse(resp: HttpResponse, parses: string -> bool): (r: Result<(string, string), ApiError>)
    ensures !(200 <= resp.status < 300) ==> r == Failure(BadStatus(resp.status))
    ensures 200 <= resp.status < 300 && resp.data.None? ==> r == Failure(Undecodable)
    ensures r.Success? <==> 200 <= resp.status < 300 && resp.data.Some? && |resp.data.value| > 0
                            && resp.data.value[0].svgUrl.Some? && resp.data.value[0].pngUrl.Some?
                            && parses(resp.data.value[0].svgUrl.value) && parses(resp.data.value[0].pngUrl.value)
    ensures r.Success? ==> r.value == (resp.data.value[0].svgUrl.value, resp.data.value[0].pngUrl.value)
    ensures 200 <= resp.status < 300 && resp.data.Some? && r.Failure? ==> r.error == InvalidResponse
  {
    if !(200 <= resp.status < 300) then Failure(BadStatus(resp.status))
    else if resp.data.None? then Failure(Undecodable)
    else if |resp.data.value| == 0 then Failure(InvalidResponse)
    else
      var first := resp.data.value[0];
      if first.svgUrl.Some? && first.pngUrl.Some? && parses(first.svgUrl.value) && parses(first.pngUrl.value)
      then Success((first.svgUrl.value, first.pngUrl.value))
      else Failure(InvalidResponse)
  }

  /** Only the first image of a response matters. */
  lemma OnlyFirstImageUsed(status: int, first: GeneratedImage, rest: seq<GeneratedImage>, parses: string -> bool)
    ensures HandleResponse(HttpResponse(status, Some([first] + rest)), parses)
            == HandleResponse(HttpResponse(status, Some([first])), parses)
  {
  }

  // ---------------------------------------------------------------------------
  // Saving the two files
  // ---------------------------------------------------------------------------

  /** The folder `Library/AISvgs`. */
  function AiFolder(library: string): string {
    AppendingPathComponent(library, "AISvgs")
  }

  /** `ensureAISvgsFolder()`: an existing folder is used as is, a missing
      one is created; a failed creation is an error. */
  function EnsureFolder(library: string, files: set<string>, createOk: bool): (r: (Result<string, SaveError>, set<string>))
    ensures r.0.Success? ==> r.0.value == AiFolder(library) && AiFolder(library) in r.1
    ensures AiFolder(library) in files ==> r == (Success(AiFolder(library)), files)
    ensures r.1 == files || r.1 == files + {AiFolder(library)}
    ensures r.0.Failure? ==> r.1 == files && AiFolder(library) !in files && !createOk
  {
    var folder := AiFolder(library);
    if folder in files then (Success(folder), files)
    else if createOk then (Success(folder), files + {folder})
    else (Failure(FolderNotCreated), files)
  }

  /** The text of `UUID().uuidString`: upper-case hexadecimal digits and
      dashes. */
  predicate IsUuidText(u: string) {
    forall i :: 0 <= i < |u| ==> IsDigit(u[i]) || 'A' <= u[i] <= 'F' || u[i] == '-'
  }

  /** What one download delivered. */
  datatype Fetched = FetchError(reason: string) | FetchedData

  /** One side's outcome: the saved file, or the error it recorded. */
  datatype Side = Side(saved: Option<string>, error: Option<SaveError>)

  /** One download's completion handler: on data, ensure the folder and
      write the file `name` into it; otherwise record the error. */
  function SaveSide(library: string, files: set<string>, fetched: Fetched, createOk: bool, writeOk: bool,
                    name: string): (r: (Side, set<string>))
    ensures r.0.saved.Some? != r.0.error.Some?
    ensures r.0.saved.Some? ==> r.0.saved.value == AppendingPathComponent(AiFolder(library), name)
                                && r.0.saved.value in r.1
    ensures r.0.saved.Some? <==> fetched == FetchedData && (AiFolder(library) in files || createOk) && writeOk
    ensures files <= r.1 <= files + {AiFolder(library), AppendingPathComponent(AiFolder(library), name)}
  {
    match fetched
    case FetchError(reason) => (Side(None, Some(NetworkError(reason))), files)
    case FetchedData =>
      var (folder, files1) := EnsureFolder(library, files, createOk);
      match folder
      case Failure(e) => (Side(None, Some(e)), files1)
      case Success(dir) =>
        var path := AppendingPathComponent(dir, name);
        if writeOk then (Side(Some(path), None), files1 + {path}) else (Side(None, Some(WriteFailed)), files1)
  }

  /** The `notify` block: any recorded error fails the whole call; with no
      error, both saved files are the result; otherwise the response was
      invalid. The shared error variable holds the error of whichever
      failing side completed last. */
  function Combine(svg: Side, png: Side, pngLast: bool): (r: Result<(string, string), ApiError>)
    ensures r.Success? <==> svg.error.None? && png.error.None? && svg.saved.Some? && png.saved.Some?
    ensures r.Success? ==> r.value == (svg.saved.value, png.saved.value)
    ensures svg.error.Some? && (!pngLast || png.error.None?) ==> r == Failure(SaveFailed(svg.error.value))
    ensures png.error.Some? && (pngLast || svg.error.None?) ==> r == Failure(SaveFailed(png.error.value))
  {
    var error := if pngLast then (if png.error.Some? then png.error else svg.error)
                 else (if svg.error.Some? then svg.error else png.error);
    if error.Some? then Failure(SaveFailed(error.value))
    else if svg.saved.Some? && png.saved.Some? then Success((svg.saved.value, png.saved.value))
    else Failure(InvalidResponse)
  }

  /** Every side either saves or records an error, so the `invalidResponse`
      fallback of the `notify` block is never reached. */
  lemma CombineNeverInvalid(svg: Side, png: Side, pngLast: bool)
    requires svg.saved.Some? != svg.error.Some? && png.saved.Some? != png.error.Some?
    ensures Combine(svg, png, pngLast) != Failure(InvalidResponse)
  {
  }

  /** The inputs of one `downloadAndSaveBoth` run other than the UUIDs:
      what each download delivered, whether each folder creation and each
      write succeeds, and which handler ran last. */
  datatype SaveRun = SaveRun(svgFetched: Fetched, pngFetched: Fetched, svgCreateOk: bool, pngCreateOk: bool,
                             svgWriteOk: bool, pngWriteOk: bool, pngLast: bool)

  /** `downloadAndSaveBoth` as written: each handler names its file with a
      fresh UUID of its own, so the SVG and the PNG of one image are
      `image_<svgId>.svg` and `image_<pngId>.png`. */
  function DownloadAndSaveBoth(library: string, files: set<string>, run: SaveRun, svgId: string, pngId: string)
    : (r: (Result<(string, string), ApiError>, set<string>))
    ensures r.0.Success? ==>
              r.0.value == (AppendingPathComponent(AiFolder(library), "image_" + svgId + ".svg"),
                            AppendingPathComponent(AiFolder(library), "image_" + pngId + ".png"))
              && r.0.value.0 in r.1 && r.0.value.1 in r.1
    ensures r.0.Success? <==> run.svgFetched == FetchedData && run.pngFetched == FetchedData
                              && run.svgWriteOk && run.pngWriteOk
                              && (AiFolder(library) in files || (if run.pngLast then run.svgCreateOk else run.pngCreateOk))
    ensures files <= r.1
  {
    var svgName := "image_" + svgId + ".svg";
    var pngName := "image_" + pngId + ".png";
    if run.pngLast then
      var (svg, files1) := SaveSide(library, files, run.svgFetched, run.svgCreateOk, run.svgWriteOk, svgName);
      var (png, files2) := SaveSide(library, files1, run.pngFetched, run.pngCreateOk, run.pngWriteOk, pngName);
      (Combine(svg, png, true), files2)
    else
      var (png, files1) := SaveSide(library, files, run.pngFetched, run.pngCreateOk, run.pngWriteOk, pngName);
      var (svg, files2) := SaveSide(library, files1, run.svgFetched, run.svgCreateOk, run.svgWriteOk, svgName);
      (Combine(svg, png, false), files2)
  }

  /** `downloadAndSaveBoth` with one UUID for both files: a successful run
      saves an SVG and a PNG whose paths differ only in the extension. */
  function DownloadAndSaveBothShared(library: string, files: set<string>, run: SaveRun, id: string)
    : (r: (Result<(string, string), ApiError>, set<string>))
    ensures r.0.Success? ==>
              |r.0.value.0| == |r.0.value.1| >= 4
              && r.0.value.0[..|r.0.value.0| - 4] == r.0.value.1[..|r.0.value.1| - 4]
              && r.0.value.0[|r.0.value.0| - 4..] == ".svg" && r.0.value.1[|r.0.value.1| - 4..] == ".png"
    ensures r.0.Success? == DownloadAndSaveBoth(library, files, run, id, id).0.Success?
  {
    var r := DownloadAndSaveBoth(library, files, run, id, id);
    if r.0.Success? then
      var stem := AppendingPathComponent(AiFolder(library), "image_" + id);
      assert r.0.value.0 == stem + ".svg";
      assert r.0.value.1 == stem + ".png";
      r
    else r
  }
}

=== FILE: catalog.dfy ===
/** The template catalogue decoded from JSON (`Category`, `SubCategory`; every
    field optional, as declared) and the two list idioms the screens use on
    it: `first(where:)` and `ForEach(0..<count)`. */
module Catalog {
  import opened Wrappers
  import Enums

  datatype SubCategory = SubCategory(id: Option<string>, title: Option<string>, itemCount: Option<int>)

  datatype Category = Category(id: Option<string>, title: Option<string>, subcategories: Option<seq<SubCategory>>)

  function CategoryId(c: Category): Option<string> { c.id }

  function CategoryTitle(c: Category): Option<string> { c.title }

  function SubCategoryId(s: SubCategory): Option<string> { s.id }

  /** Index of `xs.first(where: { key($0) == want })`. Both sides are
      optionals, so a `nil` key matches a `nil` wanted value. */
  function FirstIndexWhere<T>(xs: seq<T>, key: T -> Option<string>, want: Option<string>): (r: Option<nat>)
    ensures r.Some? ==> r.value < |xs| && key(xs[r.value]) == want
                        && forall j :: 0 <= j < r.value ==> key(xs[j]) != want
    ensures r.None? ==> forall j :: 0 <= j < |xs| ==> key(xs[j]) != want
  {
    if |xs| == 0 then None
    else if key(xs[0]) == want then Some(0)
    else
      match FirstIndexWhere(xs[1..], key, want)
      case None => None
      case Some(i) => Some(i + 1)
  }

  /** `i` is where `first(where: { key($0) == want })` stops: the first
      position whose key equals the wanted value. */
  predicate FirstMatchAt<T>(xs: seq<T>, key: T -> Option<string>, want: Option<string>, i: int) {
    0 <= i < |xs| && key(xs[i]) == want && forall j :: 0 <= j < i ==> key(xs[j]) != want
  }

  /** `xs.first(where: { key($0) == want })`: the element at the first
      matching position, and nothing when no element matches. */
  function FirstWhere<T>(xs: seq<T>, key: T -> Option<string>, want: Option<string>): (r: Option<T>)
    ensures r.Some? ==> r.value in xs && key(r.value) == want
    ensures r.None? <==> forall j :: 0 <= j < |xs| ==> key(xs[j]) != want
    ensures forall i :: FirstMatchAt(xs, key, want, i) ==> r == Some(xs[i])
  {
    match FirstIndexWhere(xs, key, want)
    case None => None
    case Some(i) => Some(xs[i])
  }

  /** When the first element matches, it is the one found. */
  lemma FirstWhereHead<T>(xs: seq<T>, key: T -> Option<string>, want: Option<string>)
    requires |xs| > 0 && key(xs[0]) == want
    ensures FirstWhere(xs, key, want) == Some(xs[0])
  {
  }

  /** Lookups that compare equal keys find the same position, whatever
      else the elements hold. */
  lemma {:induction false} FirstIndexWhereByKeyOnly<T, U>(xs: seq<T>, kx: T -> Option<string>,
                                                        ys: seq<U>, ky: U -> Option<string>, want: Option<string>)
    requires |xs| == |ys|
    requires forall i :: 0 <= i < |xs| ==> kx(xs[i]) == ky(ys[i])
    ensures FirstIndexWhere(xs, kx, want) == FirstIndexWhere(ys, ky, want)
  {
    if |xs| > 0 && kx(xs[0]) != want {
      FirstIndexWhereByKeyOnly(xs[1..], kx, ys[1..], ky, want);
    }
  }

  /** `category.subcategories?.first?.id`. */
  function FirstSubCategoryId(c: Category): (r: Option<string>)
    ensures r.Some? ==> c.subcategories.Some? && |c.subcategories.value| > 0
                        && r == c.subcategories.value[0].id
    ensures c.subcategories.Some? && |c.subcategories.value| > 0 ==> r == c.subcategories.value[0].id
    ensures c.subcategories.None? || c.subcategories.value == [] ==> r.None?
  {
    match c.subcategories
    case None => None
    case Some(subs) => if |subs| == 0 then None else subs[0].id
  }

  /** The cells of `ForEach(0..<itemCount)`: exactly the indices
      0..itemCount-1 in order; a negative count traps when the range is
      formed, which is `None` here. */
  function GridIndices(itemCount: int): (r: Option<seq<nat>>)
    ensures r.Some? <==> itemCount >= 0
    ensures r.Some? ==> |r.value| == itemCount && forall i :: 0 <= i < |r.value| ==> r.value[i] == i
  {
    if itemCount < 0 then None else Some(seq(itemCount, i requires 0 <= i => i as nat))
  }

  // ---------------------------------------------------------------------------
  // State shared by both versions of the home screen
  // ---------------------------------------------------------------------------

  /** The home screen's state: the selected category and subcategory, the
      loader flag, and the two bindings it writes, the SVG to open and the
      current screen. */
  datatype HomeState = HomeState(selectedCategoryID: Option<string>, selectedSubcategoryID: Option<string>,
                                 showLoader: bool, svgURL: Option<string>, screen: Enums.Screen)

  /** The arguments the home screen hands to the grid when it shows one. */
  datatype GridSpec = GridSpec(itemCount: int, category: Category, subcategory: SubCategory,
                               categoryID: string, subcategoryID: string)

  /** A tap's result: the new state and, on a cache miss, the address whose
      download was started. */
  datatype TapResult = TapResult(state: HomeState, download: Option<string>)
}

=== FILE: crop.dfy ===
/** The crop rectangle of the font finder: a dashed rectangle over an image
    shown in a 500 x 280 frame, moved by dragging its body and resized by
    dragging one of four corner handles. Every drag update is computed from
    the rectangle captured when the gesture began, then clamped so that each
    side is at least 40 and the rectangle stays inside the frame. */
module Crop {
  import opened Geometry

  /** The frame the image is displayed in (`imageSize` of the overlay). */
  const DisplaySize: Size := Size(500.0, 280.0)

  /** The smallest side `clampRect` lets through. */
  const MinSide: real := 40.0

  /** The rectangle shown first and restored by Reset. */
  const DefaultCropRect: Rect := Rect(80.0, 50.0, 200.0, 200.0)

  // ---------------------------------------------------------------------------
  // Handles
  // ---------------------------------------------------------------------------

  /** `positionForCorner`: 0 top-left, 1 top-right, 2 bottom-left, and every
      other index the bottom-right corner. */
  function PositionForCorner(index: int, r: Rect): (p: Point)
    ensures p.x == (if index == 0 || index == 2 then r.MinX() else r.MaxX())
    ensures p.y == (if index == 0 || index == 1 then r.MinY() else r.MaxY())
    ensures r.MinX() <= p.x <= r.MaxX() && r.MinY() <= p.y <= r.MaxY()
  {
    match index
    case 0 => Point(r.MinX(), r.MinY())
    case 1 => Point(r.MaxX(), r.MinY())
    case 2 => Point(r.MinX(), r.MaxY())
    case _ => Point(r.MaxX(), r.MaxY())
  }

  /** `resizeRect`: the dragged corner follows the drag and the edges that
      meet at the opposite corner stay where they were (before clamping).
      Any index outside 0..3 leaves the rectangle alone. */
  function ResizeRect(r: Rect, corner: int, drag: Size): (out: Rect)
    ensures corner == 0 ==> out.x == r.x + drag.width && out.y == r.y + drag.height
                            && out.x + out.w == r.x + r.w && out.y + out.h == r.y + r.h
    ensures corner == 1 ==> out.x == r.x && out.y == r.y + drag.height
                            && out.x + out.w == r.x + r.w + drag.width && out.y + out.h == r.y + r.h
    ensures corner == 2 ==> out.x == r.x + drag.width && out.y == r.y
                            && out.x + out.w == r.x + r.w && out.y + out.h == r.y + r.h + drag.height
    ensures corner == 3 ==> out.x == r.x && out.y == r.y
                            && out.w == r.w + drag.width && out.h == r.h + drag.height
    ensures !(0 <= corner <= 3) ==> out == r
  {
    match corner
    case 0 => Rect(r.x + drag.width, r.y + drag.height, r.w - drag.width, r.h - drag.height)
    case 1 => Rect(r.x, r.y + drag.height, r.w + drag.width, r.h - drag.height)
    case 2 => Rect(r.x + drag.width, r.y, r.w - drag.width, r.h + drag.height)
    case 3 => Rect(r.x, r.y, r.w + drag.width, r.h + drag.height)
    case _ => r
  }

  /** While neither side turns negative, the dragged handle moves exactly by
      the drag and the opposite handle does not move. */
  lemma HandleFollowsDrag(r: Rect, corner: int, drag: Size)
    requires 0 <= corner <= 3
    requires r.w >= 0.0 && r.h >= 0.0
    requires ResizeRect(r, corner, drag).w >= 0.0 && ResizeRect(r, corner, drag).h >= 0.0
    ensures PositionForCorner(corner, ResizeRect(r, corner, drag))
            == Point(PositionForCorner(corner, r).x + drag.width, PositionForCorner(corner, r).y + drag.height)
    ensures PositionForCorner(3 - corner, ResizeRect(r, corner, drag)) == PositionForCorner(3 - corner, r)
  {
  }

  // ---------------------------------------------------------------------------
  // Clamping
  // ---------------------------------------------------------------------------

  /** `clampRect`, as written: widen a side shorter than 40 to 40, then pull
      the origin back inside the bounds, left/top first, right/bottom last.
      The size only ever changes to 40; otherwise only the origin moves. */
  function ClampRect(r: Rect, bounds: Size): (out: Rect)
    ensures out.Width() == Max(r.Width(), MinSide) && out.Height() == Max(r.Height(), MinSide)
    ensures out.w == (if r.Width() < MinSide then MinSide else r.w)
    ensures out.h == (if r.Height() < MinSide then MinSide else r.h)
  {
    var a := if r.Width() < MinSide then r.(w := MinSide) else r;
    var b := if a.Height() < MinSide then a.(h := MinSide) else a;
    var c := if b.MinX() < 0.0 then b.(x := 0.0) else b;
    var d := if c.MinY() < 0.0 then c.(y := 0.0) else c;
    var e := if d.MaxX() > bounds.width then d.(x := bounds.width - d.Width()) else d;
    if e.MaxY() > bounds.height then e.(y := bounds.height - e.Height()) else e
  }

  /** For a rectangle of non-negative size whose enlarged size fits the
      bounds, the clamped rectangle lies inside the bounds and clamping it
      again changes nothing. */
  lemma ClampFitsAndSettles(r: Rect, bounds: Size)
    requires r.w >= 0.0 && r.h >= 0.0
    requires Max(r.w, MinSide) <= bounds.width && Max(r.h, MinSide) <= bounds.height
    ensures InBounds(ClampRect(r, bounds), bounds)
    ensures ClampRect(ClampRect(r, bounds), bounds) == ClampRect(r, bounds)
  {
  }

  /** The same guarantee fails as written once a side is negative: dragging
      the top-right handle of the default rectangle 300 points left yields
      width -100, which `clampRect` does not normalise, and the result
      reaches 100 points left of the frame although its size fits. */
  lemma ClampEscapesWithNegativeWidth()
    ensures var r := ResizeRect(DefaultCropRect, 1, Size(-300.0, 0.0));
            Max(r.Width(), MinSide) <= DisplaySize.width
            && Max(r.Height(), MinSide) <= DisplaySize.height
            && ClampRect(r, DisplaySize).MinX() == -100.0
            && !InBounds(ClampRect(r, DisplaySize), DisplaySize)
  {
  }

  /** The clamp the overlay evidently intends: standardize first, then clamp.
      Whatever the signs of the sides, a rectangle whose enlarged size fits
      ends up inside the bounds, and clamping again changes nothing. */
  function ClampStandardized(r: Rect, bounds: Size): (out: Rect)
    requires Max(r.Width(), MinSide) <= bounds.width && Max(r.Height(), MinSide) <= bounds.height
    ensures InBounds(out, bounds)
    ensures out.w == Max(r.Width(), MinSide) && out.h == Max(r.Height(), MinSide)
    ensures ClampRect(out, bounds) == out
  {
    ClampFitsAndSettles(r.Standardized(), bounds);
    var out := ClampRect(r.Standardized(), bounds);
    assert out.Standardized() == out;
    out
  }

  // ---------------------------------------------------------------------------
  // Gestures
  // ---------------------------------------------------------------------------

  /** The overlay's state: the bound crop rectangle and the rectangle
      captured when the current gesture began. */
  datatype Overlay = Overlay(cropRect: Rect, initialRect: Rect)

  /** `onAppear`: capture the current rectangle. */
  function Appear(o: Overlay): Overlay {
    o.(initialRect := o.cropRect)
  }

  /** The overlay as first shown: the default rectangle, captured on appear
      (before that `initialRect` is `.zero`). */
  const InitialOverlay: Overlay := Appear(Overlay(DefaultCropRect, Rect(0.0, 0.0, 0.0, 0.0)))

  /** The body's drag: offset the captured rectangle and clamp. */
  function DragBody(initial: Rect, translation: Size): Rect {
    ClampRect(initial.OffsetBy(translation.width, translation.height), DisplaySize)
  }

  /** A body drag never resizes a rectangle whose sides are already at least
      40; and a rectangle of non-negative size that fits the frame stays
      inside it, however far it is dragged. */
  lemma DragBodyKeepsSize(initial: Rect, translation: Size)
    ensures initial.Width() >= MinSide ==> DragBody(initial, translation).w == initial.Width()
    ensures initial.Height() >= MinSide ==> DragBody(initial, translation).h == initial.Height()
    ensures Max(initial.Width(), MinSide) <= DisplaySize.width
            && Max(initial.Height(), MinSide) <= DisplaySize.height
            ==> InBounds(DragBody(initial, translation), DisplaySize)
  {
    var moved := initial.OffsetBy(translation.width, translation.height);
    if Max(initial.Width(), MinSide) <= DisplaySize.width && Max(initial.Height(), MinSide) <= DisplaySize.height {
      ClampFitsAndSettles(moved, DisplaySize);
    }
  }

  /** `onChanged` of the body drag. */
  function BodyDragChanged(o: Overlay, translation: Size): (r: Overlay)
    ensures r.initialRect == o.initialRect
    ensures r.cropRect.Width() == Max(o.initialRect.Width(), MinSide)
            && r.cropRect.Height() == Max(o.initialRect.Height(), MinSide)
  {
    o.(cropRect := DragBody(o.initialRect, translation))
  }

  /** `onChanged` of a corner handle's drag. */
  function CornerDragChanged(o: Overlay, corner: int, translation: Size): (r: Overlay)
    ensures r.initialRect == o.initialRect
    ensures r.cropRect.Width() >= MinSide && r.cropRect.Height() >= MinSide
  {
    o.(cropRect := ClampRect(ResizeRect(o.initialRect, corner, translation), DisplaySize))
  }

  /** `onEnded` of either drag: the result becomes the next gesture's start. */
  function DragEnded(o: Overlay): (r: Overlay)
    ensures r.cropRect == o.cropRect && r.initialRect == o.cropRect
    ensures forall t :: BodyDragChanged(r, t).cropRect == DragBody(o.cropRect, t)
  {
    o.(initialRect := o.cropRect)
  }

  /** Drag updates carry cumulative translations and are computed afresh from
      the captured rectangle, so a later update replaces an earlier one
      instead of adding to it, and a translation of zero returns to the
      captured rectangle (clamped). */
  lemma DragUpdatesDoNotAccumulate(o: Overlay, t1: Size, t2: Size, corner: int)
    ensures BodyDragChanged(BodyDragChanged(o, t1), t2) == BodyDragChanged(o, t2)
    ensures CornerDragChanged(CornerDragChanged(o, corner, t1), corner, t2) == CornerDragChanged(o, corner, t2)
    ensures CornerDragChanged(o, corner, Size(0.0, 0.0)).cropRect == ClampRect(o.initialRect, DisplaySize)
  {
    assert BodyDragChanged(o, t1).initialRect == o.initialRect;
    assert CornerDragChanged(o, corner, t1).initialRect == o.initialRect;
    assert ResizeRect(o.initialRect, corner, Size(0.0, 0.0)) == o.initialRect;
  }

  /** Reset as written: it assigns the bound rectangle only. */
  function Reset(o: Overlay): (r: Overlay)
    ensures r.cropRect == DefaultCropRect && r.initialRect == o.initialRect
  {
    o.(cropRect := DefaultCropRect)
  }

  /** Because Reset leaves the captured rectangle behind, the next drag
      starts from the rectangle before the reset: after moving the crop to
      (10, 10, 100, 100), Reset and a 1-point drag give (11, 10, 100, 100),
      not (81, 50, 200, 200). */
  lemma ResetIsUndoneByNextDrag()
    ensures var o := DragEnded(Overlay(Rect(10.0, 10.0, 100.0, 100.0), DefaultCropRect));
            BodyDragChanged(Reset(o), Size(1.0, 0.0)).cropRect == Rect(11.0, 10.0, 100.0, 100.0)
  {
  }

  /** Reset as evidently intended: restore the default and capture it, so a
      drag after a reset starts from the default rectangle. */
  function ResetCaptured(o: Overlay): (r: Overlay)
    ensures r.cropRect == DefaultCropRect
    ensures forall t :: BodyDragChanged(r, t).cropRect == DragBody(DefaultCropRect, t)
  {
    Appear(o.(cropRect := DefaultCropRect))
  }

  // ---------------------------------------------------------------------------
  // Display to pixel space
  // ---------------------------------------------------------------------------

  /** The rect handed to `CGImage.cropping(to:)`: x and width scaled by
      pixelWidth / 500, y and height by pixelHeight / 280. */
  function PixelRect(r: Rect, pixelWidth: nat, pixelHeight: nat): (out: Rect)
    ensures out.x * DisplaySize.width == r.x * pixelWidth as real
            && out.w * DisplaySize.width == r.w * pixelWidth as real
    ensures out.y * DisplaySize.height == r.y * pixelHeight as real
            && out.h * DisplaySize.height == r.h * pixelHeight as real
    ensures pixelWidth == 500 && pixelHeight == 280 ==> out == r
  {
    var sx := pixelWidth as real / DisplaySize.width;
    var sy := pixelHeight as real / DisplaySize.height;
    Rect(r.x * sx, r.y * sy, r.w * sx, r.h * sy)
  }

  /** The scaling loses nothing for a non-empty image: scaling back by the
      inverse factors recovers the display rectangle. */
  lemma PixelRectInverts(r: Rect, pixelWidth: nat, pixelHeight: nat)
    requires pixelWidth > 0 && pixelHeight > 0
    ensures var p := PixelRect(r, pixelWidth, pixelHeight);
            var kx := DisplaySize.width / pixelWidth as real;
            var ky := DisplaySize.height / pixelHeight as real;
            Rect(p.x * kx, p.y * ky, p.w * kx, p.h * ky) == r
  {
    var pw := pixelWidth as real;
    var ph := pixelHeight as real;
    ScaleUndone(r.x, pw, 500.0);
    ScaleUndone(r.w, pw, 500.0);
    ScaleUndone(r.y, ph, 280.0);
    ScaleUndone(r.h, ph, 280.0);
  }

  /** The scaling maps the display frame onto the whole image, so a crop
      inside the frame is a crop inside the image. */
  lemma PixelRectFits(r: Rect, pixelWidth: nat, pixelHeight: nat)
    requires pixelWidth > 0 && pixelHeight > 0
    requires InBounds(r, DisplaySize)
    ensures InBounds(PixelRect(r, pixelWidth, pixelHeight), Size(pixelWidth as real, pixelHeight as real))
  {
    var pw := pixelWidth as real;
    var ph := pixelHeight as real;
    SpanFits(r.x, r.w, pw, 500.0);
    SpanFits(r.y, r.h, ph, 280.0);
  }

  /** One axis of a rectangle: the span covered by origin `o` and signed
      extent `e`, inside `[0, d]`, scaled by `n / d`, lies inside `[0, n]`. */
  lemma SpanFits(o: real, e: real, n: real, d: real)
    requires n > 0.0 && d > 0.0
    requires 0.0 <= (if e < 0.0 then o + e else o) && (if e < 0.0 then o else o + e) <= d
    ensures var k := n / d;
            0.0 <= (if e * k < 0.0 then o * k + e * k else o * k)
            && (if e * k < 0.0 then o * k else o * k + e * k) <= n
  {
    var k := n / d;
    assert k > 0.0;
    assert d * k == n;
    assert o * k + e * k == (o + e) * k;
    if e < 0.0 {
      assert e * k < 0.0;
      assert 0.0 <= (o + e) * k;
      assert o * k <= d * k;
      assert 0.0 <= o * k + e * k && o * k <= n;
    } else {
      assert e * k >= 0.0;
      assert 0.0 <= o * k;
      assert (o + e) * k <= d * k;
      assert 0.0 <= o * k && o * k + e * k <= n;
    }
  }

  /** Scaling by n / d and then by d / n gives the value back. */
  lemma ScaleUndone(a: real, n: real, d: real)
    requires n > 0.0 && d > 0.0
    ensures a * (n / d) * (d / n) == a
  {
    assert (n / d) * (d / n) == 1.0;
    assert a * (n / d) * (d / n) == a * ((n / d) * (d / n));
  }

  /** The crop sent for the untouched default rectangle of a 1000 x 560
      image: (160, 100, 400, 400). */
  lemma DefaultPixelRect()
    ensures PixelRect(DefaultCropRect, 1000, 560) == Rect(160.0, 100.0, 400.0, 400.0)
  {
  }
}

=== FILE: enums.dfy ===
/** The app's screen enumeration and `SVGKImage.scaleToFit(inside:)`: the
    one uniform scale factor that makes an image of intrinsic size `size` fit
    inside `maxSize`. */
module Enums {
  import opened Geometry

  /** The two screens of the main window (`screen`). */
  datatype Screen = Home | Canvas

  /** The image's `scale` after the call: unchanged when the intrinsic size
      is empty in either direction, otherwise the smaller of the two ratios. */
  function ScaleToFit(current: real, size: Size, maxSize: Size): (scale: real)
    ensures size.width <= 0.0 || size.height <= 0.0 ==> scale == current
  {
    if size.width <= 0.0 || size.height <= 0.0 then current
    else Min(maxSize.width / size.width, maxSize.height / size.height)
  }

  /** For a non-empty image the chosen scale is the largest uniform factor
      that fits: both scaled sides fit, one of them exactly, every factor
      that fits is no larger, and since one factor serves both axes the
      aspect ratio is kept. */
  lemma ScaleToFitIsLargestFit(current: real, size: Size, maxSize: Size, other: real)
    requires size.width > 0.0 && size.height > 0.0
    ensures var k := ScaleToFit(current, size, maxSize);
            size.width * k <= maxSize.width && size.height * k <= maxSize.height
            && (size.width * k == maxSize.width || size.height * k == maxSize.height)
            && (size.width * k) * size.height == (size.height * k) * size.width
    ensures other * size.width <= maxSize.width && other * size.height <= maxSize.height
            ==> other <= ScaleToFit(current, size, maxSize)
  {
    var w, h := size.width, size.height;
    var a := maxSize.width / w;
    var b := maxSize.height / h;
    assert w * a == maxSize.width;
    assert h * b == maxSize.height;
    var k := ScaleToFit(current, size, maxSize);
    if a <= b {
      assert k == a;
      assert h * a <= h * b;
    } else {
      assert k == b;
      assert w * b <= w * a;
    }
    if other * w <= maxSize.width && other * h <= maxSize.height {
      assert other * w <= a * w;
      assert other <= a;
      assert other * h <= b * h;
      assert other <= b;
    }
  }
}

=== FILE: gated_grid.dfy ===
/** The template grid of the current app (`DesignForCalligraphy/View/MainView.swift`):
    the first three cells are free; later cells carry a premium badge and,
    unless the app is free, open the subscription sheet instead of the
    item. A tap passes the 0-based index as plain decimal text. */
module GatedGrid {
  import opened Wrappers
  import opened Text

  const ThumbnailBase: string := "https://stepbystepcricut.s3.us-east-1.amazonaws.com/templates"

  /** What a tap does: open the subscription sheet, or call the action. */
  datatype TapOutcome = ShowSubscription | Act(item: string)

  /** The tap action of cell `index`. */
  function Tap(index: nat, isAppFree: bool): (r: TapOutcome)
    ensures r.ShowSubscription? <==> index > 2 && !isAppFree
    ensures r.Act? ==> AllDigits(r.item) && DigitsValue(r.item) == index
  {
    if index > 2 && !isAppFree then ShowSubscription else Act(Decimal(index))
  }

  /** Whether cell `index` shows the premium badge. */
  function ShowsBadge(index: nat, isAppFree: bool): bool {
    index > 2 && !isAppFree
  }

  /** The badge marks exactly the cells whose tap is gated; the first three
      cells are never gated; a free app gates nothing; and an allowed tap
      passes an index the action can read back, distinct per cell. */
  lemma BadgeMatchesGate(index: nat, other: nat, isAppFree: bool)
    ensures ShowsBadge(index, isAppFree) <==> Tap(index, isAppFree) == ShowSubscription
    ensures index <= 2 ==> Tap(index, isAppFree) == Act(Decimal(index))
    ensures isAppFree ==> Tap(index, isAppFree).Act?
    ensures index != other && Tap(index, isAppFree).Act? && Tap(other, isAppFree).Act?
            ==> Tap(index, isAppFree).item != Tap(other, isAppFree).item
  {
    DecimalInjective(index, other);
  }

  /** The grid's private `generatePNGURL`: category and subcategory
      lower-cased, in the `thumbnails` folder, named by the 0-based index. */
  function ThumbnailUrl(categoryID: string, subcategoryID: string, index: nat): string {
    ThumbnailBase + "/" + Lowercased(categoryID) + "/thumbnails/" + Lowercased(subcategoryID)
      + "/thumbnail" + Decimal(index) + ".png"
  }

  /** Thumbnail addresses do not depend on the case of the ids: ids that
      lower-case alike share their thumbnails. */
  lemma ThumbnailIgnoresCase(categoryID: string, subcategoryID: string, index: nat)
    ensures ThumbnailUrl(Lowercased(categoryID), Lowercased(subcategoryID), index)
            == ThumbnailUrl(categoryID, subcategoryID, index)
  {
    LowercasedIdempotent(categoryID);
    LowercasedIdempotent(subcategoryID);
  }
}

=== FILE: generator.dfy ===
/** The generate button of the AI SVG generator screen
    (`AISVGGeneratorView.swift`): without a connection it shows the
    no-internet alert; a user who has not bought a plan and has used up the
    free generations gets the premium sheet; otherwise a request goes out
    and its completion shows the result or an error. The number of
    generations used so far lives in the store; here it is the state field
    `pageCount`. */
module Generator {
  import opened Wrappers
  import Api

  const DefaultStyle: string := "FLAT_VECTOR"

  datatype GenState = GenState(pageCount: int, showLoader: bool, noInternet: bool, showPremium: bool,
                               showSaveSheet: bool, showErrorAlert: bool, errorMessage: string,
                               imageURL: Option<string>, svgURL: Option<string>)

  /** What the button reads besides the screen's state: the connection, the
      two purchase flags and the number of free generations. */
  datatype Env = Env(connected: bool, purchased: bool, isPro: bool, freeLimit: int)

  /** Whether a generation is allowed. */
  predicate Entitled(env: Env, pageCount: int) {
    env.purchased || env.isPro || pageCount < env.freeLimit
  }

  /** The button's action: the new state and, when a request is sent, its
      body (the default negative prompt and the selected style). */
  function Press(s: GenState, env: Env, prompt: string, style: string, image: Api.ImageInput)
    : (r: (GenState, Option<Api.GenerateImageRequest>))
    ensures !env.connected ==> r == (s.(noInternet := true), None)
    ensures env.connected && !Entitled(env, s.pageCount) ==> r == (s.(showPremium := true), None)
    ensures r.1.Some? <==> env.connected && Entitled(env, s.pageCount)
    ensures r.1.Some? ==> r.0 == s.(showLoader := true)
                          && r.1.value == Api.BuildRequest(prompt, Api.DefaultNegativePrompt, Some(style), image)
  {
    if !env.connected then (s.(noInternet := true), None)
    else if Entitled(env, s.pageCount) then
      (s.(showLoader := true), Some(Api.BuildRequest(prompt, Api.DefaultNegativePrompt, Some(style), image)))
    else (s.(showPremium := true), None)
  }

  /** How a sent request ended: the two saved files, or an error's
      description. */
  datatype GenOutcome = Generated(svg: string, png: string) | GenFailed(description: string)

  /** The completion handler: the loader goes off; a success shows both
      files in the save sheet and counts one more generation; a failure
      shows its description and counts nothing. */
  function Complete(s: GenState, outcome: GenOutcome): (r: GenState)
    ensures !r.showLoader
    ensures r.pageCount == s.pageCount + (if outcome.Generated? then 1 else 0)
    ensures outcome.Generated? ==> r.showSaveSheet && r.svgURL == Some(outcome.svg) && r.imageURL == Some(outcome.png)
                                   && r.showErrorAlert == s.showErrorAlert
    ensures outcome.Generated? ==> r.errorMessage == s.errorMessage
    ensures outcome.GenFailed? ==> r.showErrorAlert && r.errorMessage == outcome.description
                                   && r.svgURL == s.svgURL && r.showSaveSheet == s.showSaveSheet
                                   && r.imageURL == s.imageURL
    ensures r.noInternet == s.noInternet && r.showPremium == s.showPremium
  {
    match outcome
    case Generated(svg, png) =>
      s.(showLoader := false, imageURL := Some(png), svgURL := Some(svg), showSaveSheet := true,
         pageCount := s.pageCount + 1)
    case GenFailed(description) => s.(showLoader := false, errorMessage := description, showErrorAlert := true)
  }

  /** A session of presses, each completing (with the next outcome) before
      the next press: the final state and the number of successful
      generations. */
  function Run(s: GenState, env: Env, outcomes: seq<GenOutcome>): (r: (GenState, nat))
    ensures r.0.pageCount == s.pageCount + r.1
    ensures r.1 <= |outcomes|
    decreases |outcomes|
  {
    if |outcomes| == 0 then (s, 0)
    else
      var (s1, request) := Press(s, env, "", DefaultStyle, Api.NoImage);
      var s2 := if request.Some? then Complete(s1, outcomes[0]) else s1;
      var (t, n) := Run(s2, env, outcomes[1..]);
      (t, n + (if request.Some? && outcomes[0].Generated? then 1 else 0))
  }

  /** The free allowance: without a purchase the count of generations never
      passes the free limit through this screen (it only stays above it if
      it started there); with a connection and a purchase every successful
      outcome counts. */
  lemma {:induction false} FreeLimitHolds(s: GenState, env: Env, outcomes: seq<GenOutcome>)
    requires !env.purchased && !env.isPro
    ensures Run(s, env, outcomes).0.pageCount <= if s.pageCount < env.freeLimit then env.freeLimit else s.pageCount
    decreases |outcomes|
  {
    if |outcomes| > 0 {
      var (s1, request) := Press(s, env, "", DefaultStyle, Api.NoImage);
      var s2 := if request.Some? then Complete(s1, outcomes[0]) else s1;
      FreeLimitHolds(s2, env, outcomes[1..]);
    }
  }

  /** The number of successful outcomes in a session. */
  function Successes(outcomes: seq<GenOutcome>): nat {
    if |outcomes| == 0 then 0 else (if outcomes[0].Generated? then 1 else 0) + Successes(outcomes[1..])
  }

  /** A purchased plan with a connection never blocks: every successful
      outcome of the session is one more generation. */
  lemma {:induction false} PurchasedCountsAll(s: GenState, env: Env, outcomes: seq<GenOutcome>)
    requires env.connected && (env.purchased || env.isPro)
    ensures Run(s, env, outcomes).1 == Successes(outcomes)
    decreases |outcomes|
  {
    if |outcomes| > 0 {
      var (s1, request) := Press(s, env, "", DefaultStyle, Api.NoImage);
      PurchasedCountsAll(Complete(s1, outcomes[0]), env, outcomes[1..]);
    }
  }

  /** Without a connection nothing is ever generated. */
  lemma {:induction false} OfflineGeneratesNothing(s: GenState, env: Env, outcomes: seq<GenOutcome>)
    requires !env.connected
    ensures Run(s, env, outcomes).1 == 0
    ensures Run(s, env, outcomes).0.pageCount == s.pageCount
    decreases |outcomes|
  {
    if |outcomes| > 0 {
      OfflineGeneratesNothing(s.(noInternet := true), env, outcomes[1..]);
    }
  }
}

=== FILE: geometry.dfy ===
/** Core Graphics value types over real numbers. A `CGRect` keeps a signed
    size; its `width`, `height`, `minX`, `maxX`, `minY` and `maxY` accessors
    answer as if the rectangle were standardized (non-negative size). */
module Geometry {

  datatype Size = Size(width: real, height: real)

  datatype Point = Point(x: real, y: real)

  function Max(a: real, b: real): real { if a < b then b else a }

  function Min(a: real, b: real): real { if a < b then a else b }

  /** A `CGRect` with origin `(x, y)` and the size `(w, h)` as stored. */
  datatype Rect = Rect(x: real, y: real, w: real, h: real) {

    /** `CGRect.width`: the stored width without its sign. */
    function Width(): real { if w < 0.0 then -w else w }

    function Height(): real { if h < 0.0 then -h else h }

    function MinX(): real { if w < 0.0 then x + w else x }

    function MaxX(): real { if w < 0.0 then x else x + w }

    function MinY(): real { if h < 0.0 then y + h else y }

    function MaxY(): real { if h < 0.0 then y else y + h }

    /** `CGRect.standardized`: the same area with a non-negative size. */
    function Standardized(): (r: Rect)
      ensures r.w >= 0.0 && r.h >= 0.0
      ensures r.MinX() == MinX() && r.MaxX() == MaxX()
      ensures r.MinY() == MinY() && r.MaxY() == MaxY()
    {
      Rect(MinX(), MinY(), Width(), Height())
    }

    /** `CGRect.offsetBy(dx:dy:)`: the standardized rectangle moved by the
        offset, so its size is the standardized size. */
    function OffsetBy(dx: real, dy: real): (r: Rect)
      ensures r.Width() == Width() && r.Height() == Height()
      ensures r.MinX() == MinX() + dx && r.MinY() == MinY() + dy
    {
      var s := Standardized();
      Rect(s.x + dx, s.y + dy, s.w, s.h)
    }
  }

  /** The rectangle lies inside `[0, bounds.width] x [0, bounds.height]`. */
  predicate InBounds(r: Rect, bounds: Size) {
    0.0 <= r.MinX() && r.MaxX() <= bounds.width
    && 0.0 <= r.MinY() && r.MaxY() <= bounds.height
  }
}

=== FILE: history.dfy ===
/** The history of generated images (`HistoryViewModel.swift`): the SVG
    files of `Library/AISvgs`, newest first, each with the PNG whose name the
    SVG's name determines; and the deletion of an entry. The directory
    listing, the modification dates, the current date and the file removals
    are inputs; the file system is the set of existing paths. */
module History {
  import opened Wrappers
  import opened Text
  import Api

  /** One file of the folder listing: its path, its modification date if
      the attributes could be read, and the identity the new entry gets. */
  datatype ListedFile = ListedFile(path: string, modified: Option<int>, identity: nat)

  /** The result of listing the folder. */
  datatype Listing = FolderMissing | ListFailed | Listed(files: seq<ListedFile>)

  datatype HistoryItem = HistoryItem(identity: nat, name: string, date: int, fileURL: string, imageURL: Option<string>)

  /** Whether a listed path is an SVG: its extension, lower-cased, is `svg`. */
  predicate IsSvg(path: string) {
    Lowercased(PathExtension(LastPathComponent(path))) == "svg"
  }

  /** The name of an SVG's companion PNG: the base name with `svg_` replaced
      by `image_`, then `.png`. */
  function CompanionName(svgPath: string): string {
    Replacing(DeletingPathExtension(LastPathComponent(svgPath)), "svg_", "image_") + ".png"
  }

  /** The entry for one SVG: dated by the file or, failing that, by `now`,
      with its companion PNG when that exists. */
  function MakeItem(folder: string, f: ListedFile, files: set<string>, now: int): (r: HistoryItem)
    ensures r.fileURL == f.path && r.name == LastPathComponent(f.path) && r.identity == f.identity
    ensures r.date == f.modified.UnwrapOr(now)
    ensures r.imageURL.Some? <==> AppendingPathComponent(folder, CompanionName(f.path)) in files
    ensures r.imageURL.Some? ==> r.imageURL.value == AppendingPathComponent(folder, CompanionName(f.path))
  {
    var png := AppendingPathComponent(folder, CompanionName(f.path));
    HistoryItem(f.identity, LastPathComponent(f.path), f.modified.UnwrapOr(now), f.path,
                if png in files then Some(png) else None)
  }

  /** `filter` over a listing: the files that pass `keep`, in order. */
  function KeepWhere(xs: seq<ListedFile>, keep: ListedFile -> bool): (r: seq<ListedFile>)
    ensures |r| <= |xs|
    ensures forall x :: x in r <==> x in xs && keep(x)
  {
    if |xs| == 0 then []
    else
      var rest := KeepWhere(xs[1..], keep);
      assert forall x :: x in xs <==> x == xs[0] || x in xs[1..];
      if keep(xs[0]) then [xs[0]] + rest else rest
  }

  /** `filter` keeps each passing element as often as it occurs, and
      nothing else. */
  lemma {:induction false} KeepWhereCount(xs: seq<ListedFile>, keep: ListedFile -> bool)
    ensures forall x :: multiset(KeepWhere(xs, keep))[x] == if keep(x) then multiset(xs)[x] else 0
  {
    if |xs| > 0 {
      KeepWhereCount(xs[1..], keep);
      assert xs == [xs[0]] + xs[1..];
    }
  }

  /** `filter` distributes over concatenation, so it keeps the order. */
  lemma {:induction false} KeepWhereAppend(a: seq<ListedFile>, b: seq<ListedFile>, keep: ListedFile -> bool)
    ensures KeepWhere(a + b, keep) == KeepWhere(a, keep) + KeepWhere(b, keep)
  {
    if |a| > 0 {
      assert (a + b)[0] == a[0];
      assert (a + b)[1..] == a[1..] + b;
      KeepWhereAppend(a[1..], b, keep);
    } else {
      assert a + b == b;
    }
  }

  predicate IsSvgFile(f: ListedFile) {
    IsSvg(f.path)
  }

  /** The SVG files of a listing, in listing order. */
  function SvgFiles(fs: seq<ListedFile>): (r: seq<ListedFile>)
    ensures |r| <= |fs|
    ensures forall f :: f in r <==> f in fs && IsSvg(f.path)
  {
    KeepWhere(fs, IsSvgFile)
  }

  /** Filtering keeps every SVG as often as it is listed, and nothing else. */
  lemma SvgFilesCount(fs: seq<ListedFile>)
    ensures forall f :: multiset(SvgFiles(fs))[f] == if IsSvg(f.path) then multiset(fs)[f] else 0
  {
    KeepWhereCount(fs, IsSvgFile);
  }

  /** Filtering keeps the listing order: the SVGs of two listings one after
      the other are the SVGs of the first, then those of the second. */
  lemma SvgFilesAppend(a: seq<ListedFile>, b: seq<ListedFile>)
    ensures SvgFiles(a + b) == SvgFiles(a) + SvgFiles(b)
  {
    KeepWhereAppend(a, b, IsSvgFile);
  }

  /** A single listed file is kept exactly when it is an SVG. */
  lemma SvgFilesSingle(f: ListedFile)
    ensures SvgFiles([f]) == if IsSvg(f.path) then [f] else []
  {
    assert [f][1..] == [];
  }

  /** The entries of the SVG files of a listing, in listing order: entry
      `i` is an SVG, named and dated after the `i`-th SVG file, and has a
      companion PNG exactly when that PNG exists. */
  function SvgItems(folder: string, fs: seq<ListedFile>, files: set<string>, now: int): (r: seq<HistoryItem>)
    ensures |r| == |SvgFiles(fs)|
    ensures forall i :: 0 <= i < |r| ==>
              var f := SvgFiles(fs)[i];
              IsSvg(r[i].fileURL) && r[i].fileURL == f.path && r[i].identity == f.identity
              && r[i].name == LastPathComponent(f.path) && r[i].date == f.modified.UnwrapOr(now)
              && (r[i].imageURL.Some? <==> AppendingPathComponent(folder, CompanionName(f.path)) in files)
              && (r[i].imageURL.Some? ==> r[i].imageURL.value == AppendingPathComponent(folder, CompanionName(f.path)))
  {
    var svgs := SvgFiles(fs);
    seq(|svgs|, i requires 0 <= i < |svgs| => MakeItem(folder, svgs[i], files, now))
  }

  /** Newest first. */
  predicate NewestFirst(xs: seq<HistoryItem>) {
    forall i, j :: 0 <= i < j < |xs| ==> xs[i].date >= xs[j].date
  }

  /** A newest-first list stays so under a new head that is not older than
      its old head. */
  lemma ConsNewestFirst(a: HistoryItem, xs: seq<HistoryItem>)
    requires NewestFirst(xs) && (|xs| > 0 ==> a.date >= xs[0].date)
    ensures NewestFirst([a] + xs)
  {
    var ys := [a] + xs;
    forall i, j | 0 <= i < j < |ys|
      ensures ys[i].date >= ys[j].date
    {
      if i == 0 && j > 1 {
        assert ys[j] == xs[j - 1];
      }
    }
  }

  /** Inserts `x` into a newest-first list, keeping it newest first. */
  function Insert(x: HistoryItem, xs: seq<HistoryItem>): (r: seq<HistoryItem>)
    requires NewestFirst(xs)
    ensures NewestFirst(r)
    ensures multiset(r) == multiset(xs) + multiset{x}
    ensures |r| == |xs| + 1 && (r[0] == x || (|xs| > 0 && r[0] == xs[0]))
  {
    if |xs| == 0 then [x]
    else if x.date >= xs[0].date then
      ConsNewestFirst(x, xs);
      [x] + xs
    else
      var rest := Insert(x, xs[1..]);
      assert xs == [xs[0]] + xs[1..];
      assert |xs| > 1 ==> xs[0].date >= xs[1].date;
      ConsNewestFirst(xs[0], rest);
      [xs[0]] + rest
  }

  /** `sorted(by: { $0.date > $1.date })`: newest first, and a permutation
      of the input. */
  function SortNewestFirst(xs: seq<HistoryItem>): (r: seq<HistoryItem>)
    ensures NewestFirst(r)
    ensures multiset(r) == multiset(xs)
  {
    if |xs| == 0 then []
    else
      assert xs == [xs[0]] + xs[1..];
      Insert(xs[0], SortNewestFirst(xs[1..]))
  }

  /** `loadHistory()`: a missing folder or a failed listing keeps the
      current entries; otherwise the entries are the listing's SVG files,
      newest first. */
  function LoadHistory(items: seq<HistoryItem>, library: string, listing: Listing, files: set<string>, now: int)
    : (r: seq<HistoryItem>)
    ensures !listing.Listed? ==> r == items
    ensures listing.Listed? ==> NewestFirst(r)
                                && multiset(r) == multiset(SvgItems(Api.AiFolder(library), listing.files, files, now))
  {
    match listing
    case FolderMissing => items
    case ListFailed => items
    case Listed(fs) => SortNewestFirst(SvgItems(Api.AiFolder(library), fs, files, now))
  }

  /** Every SVG file of the listing has its entry in the loaded history. */
  lemma SvgFileHasEntry(library: string, fs: seq<ListedFile>, files: set<string>, now: int, f: ListedFile)
    requires f in fs && IsSvg(f.path)
    ensures MakeItem(Api.AiFolder(library), f, files, now) in LoadHistory([], library, Listed(fs), files, now)
  {
    var folder := Api.AiFolder(library);
    var items := SvgItems(folder, fs, files, now);
    var svgs := SvgFiles(fs);
    assert f in svgs;
    var i :| 0 <= i < |svgs| && svgs[i] == f;
    assert items[i] == MakeItem(folder, f, files, now);
    var loaded := LoadHistory([], library, Listed(fs), files, now);
    assert multiset(loaded) == multiset(items);
    assert items[i] in multiset(loaded);
  }

  /** Every entry of a loaded history is the entry of an SVG file of the
      listing. */
  lemma EntryHasSvgFile(library: string, fs: seq<ListedFile>, files: set<string>, now: int, x: HistoryItem)
    requires x in LoadHistory([], library, Listed(fs), files, now)
    ensures exists f :: f in fs && IsSvg(f.path) && x == MakeItem(Api.AiFolder(library), f, files, now)
  {
    var items := SvgItems(Api.AiFolder(library), fs, files, now);
    var svgs := SvgFiles(fs);
    assert x in multiset(items);
    var i :| 0 <= i < |items| && items[i] == x;
    assert svgs[i] in svgs;
  }

  // ---------------------------------------------------------------------------
  // Companion PNG of a generated image
  // ---------------------------------------------------------------------------

  /** The SVG the generator saves as `image_<id>.svg` has the companion
      `image_<id>.png` in the same folder. */
  lemma {:induction false} CompanionOfGeneratedSvg(library: string, id: string)
    requires Api.IsUuidText(id)
    ensures AppendingPathComponent(Api.AiFolder(library), CompanionName(AppendingPathComponent(Api.AiFolder(library), "image_" + id + ".svg")))
            == AppendingPathComponent(Api.AiFolder(library), "image_" + id + ".png")
  {
    var stem := "image_" + id;
    var name := stem + ".svg";
    assert name == stem + "." + "svg";
    forall k | 0 <= k < |name|
      ensures name[k] != '/'
    {
      if 6 <= k < 6 + |id| {
        assert name[k] == id[k - 6];
      }
    }
    LastPathComponentOfAppended(Api.AiFolder(library), name);
    ExtensionOfDotted(stem, "svg");
    forall k | 0 <= k < |stem|
      ensures stem[k] != 's'
    {
      if 6 <= k {
        assert stem[k] == id[k - 6];
      }
    }
    ReplacingAbsent(stem, "svg_", "image_");
  }

  /** Distinct ids give distinct PNG paths. */
  lemma PngNamesDistinct(folder: string, u: string, v: string)
    requires u != v
    ensures AppendingPathComponent(folder, "image_" + u + ".png") != AppendingPathComponent(folder, "image_" + v + ".png")
  {
    var a := AppendingPathComponent(folder, "image_" + u + ".png");
    var b := AppendingPathComponent(folder, "image_" + v + ".png");
    var k := |folder| + 7;
    assert a[k..k + |u|] == u;
    assert b[k..k + |v|] == v;
  }

  /** As written, the generator names the SVG and the PNG of one image with
      two different UUIDs, so the history never finds the PNG it saved: the
      entry for the saved SVG is never paired with the saved PNG. */
  lemma GeneratedPngNotFound(library: string, files: set<string>, run: Api.SaveRun, svgId: string, pngId: string,
                             modified: Option<int>, identity: nat, now: int)
    requires Api.IsUuidText(svgId) && Api.IsUuidText(pngId) && svgId != pngId
    requires Api.DownloadAndSaveBoth(library, files, run, svgId, pngId).0.Success?
    ensures var (result, after) := Api.DownloadAndSaveBoth(library, files, run, svgId, pngId);
            MakeItem(Api.AiFolder(library), ListedFile(result.value.0, modified, identity), after, now).imageURL
              != Some(result.value.1)
  {
    var folder := Api.AiFolder(library);
    CompanionOfGeneratedSvg(library, svgId);
    PngNamesDistinct(folder, svgId, pngId);
    var a := AppendingPathComponent(folder, "image_" + svgId + ".png");
    var b := AppendingPathComponent(folder, "image_" + pngId + ".png");
  }

  /** With one UUID for both files, the history pairs every generated SVG
      with the PNG saved alongside it. */
  lemma SharedIdCompanionFound(library: string, files: set<string>, run: Api.SaveRun, id: string,
                               modified: Option<int>, identity: nat, now: int)
    requires Api.IsUuidText(id)
    requires Api.DownloadAndSaveBothShared(library, files, run, id).0.Success?
    ensures var (result, after) := Api.DownloadAndSaveBothShared(library, files, run, id);
            MakeItem(Api.AiFolder(library), ListedFile(result.value.0, modified, identity), after, now).imageURL
              == Some(result.value.1)
  {
    CompanionOfGeneratedSvg(library, id);
    assert Api.DownloadAndSaveBothShared(library, files, run, id) == Api.DownloadAndSaveBoth(library, files, run, id, id);
  }

  // ---------------------------------------------------------------------------
  // Deletion
  // ---------------------------------------------------------------------------

  /** `items.removeAll { $0.id == identity }`. */
  function RemoveIdentity(items: seq<HistoryItem>, identity: nat): (r: seq<HistoryItem>)
    ensures forall x :: x in r <==> x in items && x.identity != identity
    ensures |r| <= |items|
    ensures NewestFirst(items) ==> NewestFirst(r)
  {
    if |items| == 0 then []
    else
      var rest := RemoveIdentity(items[1..], identity);
      assert forall x :: x in items <==> x == items[0] || x in items[1..];
      if items[0].identity == identity then
        assert NewestFirst(items) ==> NewestFirst(items[1..]);
        rest
      else if NewestFirst(items) then
        NewestFirstTail(items);
        assert |rest| > 0 ==> rest[0] in items[1..];
        ConsNewestFirst(items[0], rest);
        [items[0]] + rest
      else [items[0]] + rest
  }

  /** The tail of a newest-first list is newest first and not newer than
      its head. */
  lemma NewestFirstTail(items: seq<HistoryItem>)
    requires |items| > 0 && NewestFirst(items)
    ensures NewestFirst(items[1..]) && forall x :: x in items[1..] ==> items[0].date >= x.date
  {
    forall x | x in items[1..]
      ensures items[0].date >= x.date
    {
      var k :| 0 <= k < |items[1..]| && items[1..][k] == x;
      assert items[k + 1] == x;
    }
  }

  /** `delete(_:)`: removes the SVG, then the PNG if it exists, then the
      entry. A failed SVG removal changes nothing; a failed PNG removal
      leaves the SVG removed but the entry listed. */
  function Delete(items: seq<HistoryItem>, item: HistoryItem, files: set<string>,
                  svgRemoveOk: bool, pngRemoveOk: bool): (r: (seq<HistoryItem>, set<string>))
    ensures !(item.fileURL in files && svgRemoveOk) ==> r == (items, files)
    ensures r.1 <= files
    ensures r.0 == items || r.0 == RemoveIdentity(items, item.identity)
    ensures r.0 == RemoveIdentity(items, item.identity) <==>
              (item.fileURL in files && svgRemoveOk
               && (item.imageURL.None? || item.imageURL.value !in files - {item.fileURL} || pngRemoveOk))
              || RemoveIdentity(items, item.identity) == items
    ensures r.0 != items ==> item.imageURL.None? || item.imageURL.value !in r.1
    ensures NewestFirst(items) ==> NewestFirst(r.0)
    ensures item.fileURL in files && svgRemoveOk ==>
              r.1 == files - {item.fileURL} - (if item.imageURL.Some? && pngRemoveOk then {item.imageURL.value} else {})
  {
    if !(item.fileURL in files && svgRemoveOk) then (items, files)
    else
      var files1 := files - {item.fileURL};
      if item.imageURL.Some? && item.imageURL.value in files1 then
        if pngRemoveOk then (RemoveIdentity(items, item.identity), files1 - {item.imageURL.value})
        else (items, files1)
      else (RemoveIdentity(items, item.identity), files1)
  }
}

=== FILE: home.dfy ===
/** The home screen of the current app (`DesignForCalligraphy/View/HomeView.swift`):
    the side menu selects categories by title, the subcategory menu lists
    the selected category's subcategories, and a grid tap opens the local
    copy `Library/SVGs/<category>/<subcategory>/svg_<item>.svg` or starts a
    download of the template SVG. */
module Home {
  import opened Wrappers
  import opened Text
  import opened Catalog
  import opened Enums
  import Templates
  import GatedGrid

  /** The subcategory menu's list: the subcategories of the first category
      whose title equals the selection, or none. The comparison is between
      two optionals, so without a selection the first untitled category's
      list is shown. */
  function SubMenuList(s: HomeState, cats: seq<Category>): (r: seq<SubCategory>)
    ensures r != [] ==> exists c :: c in cats && c.title == s.selectedCategoryID && c.subcategories == Some(r)
    ensures (forall i :: 0 <= i < |cats| ==> cats[i].title != s.selectedCategoryID) ==> r == []
    ensures forall i :: FirstMatchAt(cats, CategoryTitle, s.selectedCategoryID, i)
                        ==> r == cats[i].subcategories.UnwrapOr([])
  {
    var found := FirstWhere(cats, CategoryTitle, s.selectedCategoryID);
    if found.None? then []
    else
      var c := found.value;
      assert c in cats && c.title == s.selectedCategoryID;
      c.subcategories.UnwrapOr([])
  }

  /** Without a selection, the menu lists the subcategories of the first
      category that has no title, wherever it stands in the catalogue. */
  lemma NilSelectionListsUntitled(s: HomeState, cats: seq<Category>, i: nat)
    requires s.selectedCategoryID.None?
    requires i < |cats| && cats[i].title.None?
    requires forall j :: 0 <= j < i ==> cats[j].title.Some?
    ensures SubMenuList(s, cats) == cats[i].subcategories.UnwrapOr([])
  {
    assert FirstMatchAt(cats, CategoryTitle, s.selectedCategoryID, i);
  }

  /** The category whose title equals the (non-nil) selection. */
  function SelectedCategory(s: HomeState, cats: seq<Category>): (r: Option<Category>)
    ensures r.Some? ==> r.value in cats && s.selectedCategoryID.Some? && r.value.title == s.selectedCategoryID
    ensures r.None? <==> s.selectedCategoryID.None? || forall i :: 0 <= i < |cats| ==> cats[i].title != s.selectedCategoryID
    ensures s.selectedCategoryID.Some? ==>
              forall i :: FirstMatchAt(cats, CategoryTitle, s.selectedCategoryID, i) ==> r == Some(cats[i])
  {
    if s.selectedCategoryID.None? then None else FirstWhere(cats, CategoryTitle, s.selectedCategoryID)
  }

  /** The grid, shown only when the selected title resolves to a category
      and the selected id to one of its subcategories; the count defaults
      to 0. The grid gets the title as its category id. */
  function Grid(s: HomeState, cats: seq<Category>): (r: Option<GridSpec>)
    ensures forall i, k :: s.selectedCategoryID.Some? && s.selectedSubcategoryID.Some?
                          && FirstMatchAt(cats, CategoryTitle, s.selectedCategoryID, i) && cats[i].subcategories.Some?
                          && FirstMatchAt(cats[i].subcategories.value, SubCategoryId, s.selectedSubcategoryID, k)
                          ==> var sub := cats[i].subcategories.value[k];
                              r == Some(GridSpec(sub.itemCount.UnwrapOr(0), cats[i], sub,
                                                 s.selectedCategoryID.value, s.selectedSubcategoryID.value))
    ensures r.Some? ==> r.value.category in cats
                        && s.selectedCategoryID == Some(r.value.categoryID) == r.value.category.title
                        && s.selectedSubcategoryID == Some(r.value.subcategoryID) == r.value.subcategory.id
                        && r.value.category.subcategories.Some?
                        && r.value.subcategory in r.value.category.subcategories.value
                        && r.value.itemCount == r.value.subcategory.itemCount.UnwrapOr(0)
    ensures s.selectedCategoryID.None? || s.selectedSubcategoryID.None? ==> r.None?
  {
    match (s.selectedCategoryID, s.selectedSubcategoryID, SelectedCategory(s, cats))
    case (Some(title), Some(sid), Some(c)) =>
      (match c.subcategories
       case None => None
       case Some(subs) =>
         match FirstWhere(subs, SubCategoryId, Some(sid))
         case None => None
         case Some(sub) => Some(GridSpec(sub.itemCount.UnwrapOr(0), c, sub, title, sid)))
    case _ => None
  }

  /** The `onChange(of: selectedCategoryID)` reaction: select the first
      subcategory of the first category with the new title; an unknown title
      changes nothing. */
  function CategoryChanged(s: HomeState, cats: seq<Category>): HomeState {
    match SelectedCategory(s, cats)
    case None => s
    case Some(c) => s.(selectedSubcategoryID := FirstSubCategoryId(c))
  }

  /** A side-menu tap: it assigns the category's title; the reaction runs
      only when the value actually changes. */
  function ChooseCategory(s: HomeState, cats: seq<Category>, title: Option<string>): HomeState {
    if title == s.selectedCategoryID then s
    else CategoryChanged(s.(selectedCategoryID := title), cats)
  }

  /** `onAppear` and `onChange(of: viewModel.categories.count)`: select the
      first category's title and its first subcategory. */
  function Refresh(s: HomeState, cats: seq<Category>): HomeState {
    if |cats| == 0 then s
    else
      var s1 := s.(selectedCategoryID := cats[0].title, selectedSubcategoryID := FirstSubCategoryId(cats[0]));
      if s1.selectedCategoryID == s.selectedCategoryID then s1 else CategoryChanged(s1, cats)
  }

  /** After appearing or a change in the number of categories the selection
      is the first category's title and its first subcategory's id, and
      nothing else changes; an empty catalogue changes nothing. Choosing a
      different known title selects that category's first subcategory; an
      unknown title keeps the subcategory. */
  lemma SelectionRules(s: HomeState, cats: seq<Category>, title: string)
    ensures |cats| > 0 ==> Refresh(s, cats) == s.(selectedCategoryID := cats[0].title,
                                                  selectedSubcategoryID := FirstSubCategoryId(cats[0]))
    ensures |cats| == 0 ==> Refresh(s, cats) == s
    ensures var t := ChooseCategory(s, cats, Some(title));
            t.selectedCategoryID == Some(title)
            && (Some(title) != s.selectedCategoryID ==>
                  match FirstWhere(cats, CategoryTitle, Some(title))
                  case Some(c) => t.selectedSubcategoryID == FirstSubCategoryId(c)
                  case None => t.selectedSubcategoryID == s.selectedSubcategoryID)
  {
    if |cats| > 0 && cats[0].title.Some? {
      FirstWhereHead(cats, CategoryTitle, cats[0].title);
    }
  }

  /** `localSVGPath`: `Library/SVGs/<category>/<subcategory>/svg_<item>.svg`. */
  function LocalSvgPath(library: string, categoryID: string, subcategoryID: string, itemID: string): (r: string)
    ensures |r| > |library| + 6 && r[..|library| + 6] == library + "/SVGs/"
    ensures '/' !in itemID ==> LastPathComponent(r) == "svg_" + itemID + ".svg"
  {
    var folder := AppendingPathComponent(library, "SVGs/" + categoryID + "/" + subcategoryID);
    var name := "svg_" + itemID + ".svg";
    var r := AppendingPathComponent(folder, name);
    assert r == (library + "/SVGs/") + (categoryID + "/" + subcategoryID + "/" + name);
    if '/' in itemID then r
    else
      assert forall k :: 4 <= k < 4 + |itemID| ==> name[k] == itemID[k - 4];
      LastPathComponentOfAppended(folder, name);
      r
  }

  /** A grid tap: a local copy opens the canvas with no download; otherwise
      the loader turns on and the template SVG's download starts. */
  function Tap(s: HomeState, g: GridSpec, item: string, library: string, files: set<string>): (r: TapResult)
    ensures r.download.None? <==> LocalSvgPath(library, g.categoryID, g.subcategoryID, item) in files
    ensures r.download.None? ==>
              r.state == s.(svgURL := Some(LocalSvgPath(library, g.categoryID, g.subcategoryID, item)), screen := Canvas)
    ensures r.download.Some? ==>
              r.download.value == Templates.SvgUrl(g.categoryID, g.subcategoryID, item)
              && r.state == s.(showLoader := true)
  {
    var local := LocalSvgPath(library, g.categoryID, g.subcategoryID, item);
    if local in files then TapResult(s.(svgURL := Some(local), screen := Canvas), None)
    else TapResult(s.(showLoader := true), Some(Templates.SvgUrl(g.categoryID, g.subcategoryID, item)))
  }

  /** The download's completion as written: a success opens the file on the
      canvas, a failure changes nothing, and neither touches the loader. */
  function DownloadFinished(s: HomeState, result: Result<string, string>): (r: HomeState)
    ensures r.showLoader == s.showLoader
    ensures r.screen == (if result.Success? then Canvas else s.screen)
    ensures r.svgURL == (if result.Success? then Some(result.value) else s.svgURL)
    ensures r.selectedCategoryID == s.selectedCategoryID && r.selectedSubcategoryID == s.selectedSubcategoryID
    ensures result.Failure? ==> r == s
  {
    match result
    case Success(path) => s.(svgURL := Some(path), screen := Canvas)
    case Failure(_) => s
  }

  /** So a failed download leaves the loader on for good: from a fresh
      screen, a cache miss followed by a failed download ends with the
      loader still shown and the home screen still current. */
  lemma LoaderStaysOnAfterFailedDownload(s: HomeState, g: GridSpec, item: string, library: string,
                                         files: set<string>, error: string)
    requires !s.showLoader && s.screen == Home
    requires LocalSvgPath(library, g.categoryID, g.subcategoryID, item) !in files
    ensures var r := DownloadFinished(Tap(s, g, item, library, files).state, Failure(error));
            r.showLoader && r.screen == Home
  {
  }

  /** The completion as evidently intended (and as the earlier version does
      it): the loader goes off on both paths. */
  function DownloadFinishedClearingLoader(s: HomeState, result: Result<string, string>): (r: HomeState)
    ensures !r.showLoader
    ensures r.screen == (if result.Success? then Canvas else s.screen)
    ensures r.svgURL == (if result.Success? then Some(result.value) else s.svgURL)
  {
    DownloadFinished(s, result).(showLoader := false)
  }

  /** The item a tap on grid cell `index` passes is its decimal index, so
      the local copy looked for is named `svg_<index>.svg`. */
  lemma TappedCellLocalName(index: nat, isAppFree: bool, library: string, categoryID: string, subcategoryID: string)
    requires GatedGrid.Tap(index, isAppFree).Act?
    ensures LastPathComponent(LocalSvgPath(library, categoryID, subcategoryID, GatedGrid.Tap(index, isAppFree).item))
            == "svg_" + Decimal(index) + ".svg"
  {
    var name := "svg_" + Decimal(index) + ".svg";
    forall k | 0 <= k < |name|
      ensures name[k] != '/'
    {
      if 4 <= k < 4 + |Decimal(index)| {
        assert name[k] == Decimal(index)[k - 4];
      }
    }
    LastPathComponentOfAppended(AppendingPathComponent(library, "SVGs/" + categoryID + "/" + subcategoryID), name);
  }
}

=== FILE: legacy_grid.dfy ===
/** The template grid of the earlier app version (`View/MainView.swift`):
    one cell per item, each identified by the subcategory id and its 1-based
    position padded to two digits, showing a PNG thumbnail and passing the
    item id to the tap action. */
module LegacyGrid {
  import opened Wrappers
  import opened Text
  import opened Catalog
  import Templates

  /** The item id of cell `index`: `"\(subcategoryID)_\(String(format: "%02d", index + 1))"`. */
  function ItemId(subcategoryID: string, index: nat): string {
    subcategoryID + "_" + ZeroPadded2(index + 1)
  }

  /** The grid's private `generatePNGURL`: the item id with its first
      character upper-cased, then `_20-01.png`, in the `png` folder. */
  function ThumbnailUrl(categoryID: string, subcategoryID: string, itemID: string): string {
    Templates.TemplatesBase + "/" + categoryID + "/" + subcategoryID + "/png/" + Capitalized(itemID) + "_20-01.png"
  }

  /** What one cell shows and what tapping it passes on. */
  datatype Cell = Cell(tapArgument: string, thumbnailUrl: string)

  /** The cell for `index`: the tap argument and the thumbnail address are
      built from one item id. */
  function CellAt(categoryID: string, subcategoryID: string, index: nat): Cell {
    var itemID := ItemId(subcategoryID, index);
    Cell(itemID, ThumbnailUrl(categoryID, subcategoryID, itemID))
  }

  /** The grid's cells: exactly `itemCount` of them, cell `i` for index `i`,
      each passing to the tap action the id its thumbnail was built from. A
      negative count traps (`None`). */
  function Cells(itemCount: int, categoryID: string, subcategoryID: string): (r: Option<seq<Cell>>)
    ensures r.Some? <==> itemCount >= 0
    ensures r.Some? ==> |r.value| == itemCount
    ensures r.Some? ==> forall i :: 0 <= i < |r.value| ==>
              r.value[i].tapArgument == ItemId(subcategoryID, i)
              && r.value[i].thumbnailUrl == ThumbnailUrl(categoryID, subcategoryID, r.value[i].tapArgument)
  {
    match GridIndices(itemCount)
    case None => None
    case Some(indices) => Some(seq(|indices|, i requires 0 <= i < |indices| => CellAt(categoryID, subcategoryID, indices[i])))
  }

  /** Item ids are the subcategory id, `_`, and at least two digits that
      read back as the 1-based position; so distinct cells never share an
      id. */
  lemma {:induction false} ItemIdsDistinct(subcategoryID: string, i: nat, j: nat)
    ensures var id := ItemId(subcategoryID, i);
            |id| >= |subcategoryID| + 3 && id[..|subcategoryID| + 1] == subcategoryID + "_"
            && AllDigits(id[|subcategoryID| + 1..]) && DigitsValue(id[|subcategoryID| + 1..]) == i + 1
    ensures i != j ==> ItemId(subcategoryID, i) != ItemId(subcategoryID, j)
  {
    var a := ItemId(subcategoryID, i);
    var b := ItemId(subcategoryID, j);
    var k := |subcategoryID| + 1;
    assert a[..k] == subcategoryID + "_";
    assert a[k..] == ZeroPadded2(i + 1);
    assert b[k..] == ZeroPadded2(j + 1);
    if a == b {
      DecimalInjective(i + 1, j + 1);
    }
  }
}

=== FILE: legacy_home.dfy ===
/** The home screen of the earlier app version (`View/HomeView.swift`):
    categories and subcategories are selected by `id`; tapping a grid cell
    opens the cached SVG of that item, or downloads it first with the loader
    shown. */
module LegacyHome {
  import opened Wrappers
  import opened Catalog
  import opened Enums
  import Templates
  import Text

  /** The category whose `id` equals the selected id, if any. */
  function SelectedCategory(s: HomeState, cats: seq<Category>): (r: Option<Category>)
    ensures r.Some? ==> r.value in cats && s.selectedCategoryID.Some? && r.value.id == s.selectedCategoryID
    ensures r.None? <==> s.selectedCategoryID.None? || forall i :: 0 <= i < |cats| ==> cats[i].id != s.selectedCategoryID
    ensures s.selectedCategoryID.Some? ==>
              forall i :: FirstMatchAt(cats, CategoryId, s.selectedCategoryID, i) ==> r == Some(cats[i])
  {
    if s.selectedCategoryID.None? then None else FirstWhere(cats, CategoryId, s.selectedCategoryID)
  }

  /** The subcategory menu: the selected category's list, shown only when
      the selected id resolves and that category has a list. */
  function SubMenu(s: HomeState, cats: seq<Category>): (r: Option<seq<SubCategory>>)
    ensures r.Some? ==> exists c :: c in cats && c.id == s.selectedCategoryID && s.selectedCategoryID.Some?
                                    && c.subcategories == Some(r.value)
    ensures s.selectedCategoryID.None? ==> r.None?
    ensures s.selectedCategoryID.Some? ==>
              forall i :: FirstMatchAt(cats, CategoryId, s.selectedCategoryID, i) ==> r == cats[i].subcategories
  {
    match SelectedCategory(s, cats)
    case None => None
    case Some(c) => c.subcategories
  }

  /** The grid, shown when both selected ids resolve: the category by id
      and, inside its list, the subcategory by id. The count defaults to 0. */
  function Grid(s: HomeState, cats: seq<Category>): (r: Option<GridSpec>)
    ensures forall i, k :: s.selectedCategoryID.Some? && s.selectedSubcategoryID.Some?
                          && FirstMatchAt(cats, CategoryId, s.selectedCategoryID, i) && cats[i].subcategories.Some?
                          && FirstMatchAt(cats[i].subcategories.value, SubCategoryId, s.selectedSubcategoryID, k)
                          ==> var sub := cats[i].subcategories.value[k];
                              r == Some(GridSpec(sub.itemCount.UnwrapOr(0), cats[i], sub,
                                                 s.selectedCategoryID.value, s.selectedSubcategoryID.value))
    ensures r.Some? ==> r.value.category in cats
                        && s.selectedCategoryID == Some(r.value.categoryID) == r.value.category.id
                        && s.selectedSubcategoryID == Some(r.value.subcategoryID) == r.value.subcategory.id
                        && r.value.category.subcategories.Some?
                        && r.value.subcategory in r.value.category.subcategories.value
                        && r.value.itemCount == r.value.subcategory.itemCount.UnwrapOr(0)
  {
    match (s.selectedCategoryID, s.selectedSubcategoryID, SelectedCategory(s, cats))
    case (Some(cid), Some(sid), Some(c)) =>
      (match c.subcategories
       case None => None
       case Some(subs) =>
         match FirstWhere(subs, SubCategoryId, Some(sid))
         case None => None
         case Some(sub) => Some(GridSpec(sub.itemCount.UnwrapOr(0), c, sub, cid, sid)))
    case _ => None
  }

  /** Categories are looked up by `id` only: renaming every category (same
      ids, same subcategories) changes neither the menu nor the grid. */
  lemma LookupIgnoresTitles(s: HomeState, cats: seq<Category>, renamed: seq<Category>)
    requires |renamed| == |cats|
    requires forall i :: 0 <= i < |cats| ==> renamed[i] == cats[i].(title := renamed[i].title)
    ensures SubMenu(s, renamed) == SubMenu(s, cats)
    ensures Grid(s, renamed).Some? == Grid(s, cats).Some?
    ensures Grid(s, renamed).Some? ==> Grid(s, renamed).value.subcategory == Grid(s, cats).value.subcategory
  {
    FirstIndexWhereByKeyOnly(cats, CategoryId, renamed, CategoryId, s.selectedCategoryID);
  }

  /** The `onChange(of: selectedCategoryID)` reaction: select the first
      subcategory of the category with the new id; an unknown id changes
      nothing. */
  function CategoryChanged(s: HomeState, cats: seq<Category>): HomeState {
    match SelectedCategory(s, cats)
    case None => s
    case Some(c) => s.(selectedSubcategoryID := FirstSubCategoryId(c))
  }

  /** Choosing a category in the side menu; the reaction runs only when the
      value actually changes. */
  function ChooseCategory(s: HomeState, cats: seq<Category>, id: Option<string>): HomeState {
    if id == s.selectedCategoryID then s
    else CategoryChanged(s.(selectedCategoryID := id), cats)
  }

  /** `onAppear`: select the first category and its first subcategory; the
      assignment itself may fire the change reaction. */
  function Appear(s: HomeState, cats: seq<Category>): HomeState {
    if |cats| == 0 then s
    else
      var s1 := s.(selectedCategoryID := cats[0].id, selectedSubcategoryID := FirstSubCategoryId(cats[0]));
      if s1.selectedCategoryID == s.selectedCategoryID then s1 else CategoryChanged(s1, cats)
  }

  /** On appear the selection defaults to the first category's id and its
      first subcategory's id, and nothing else changes; choosing a different
      known category selects its first subcategory, and an unknown one keeps
      the subcategory. */
  lemma SelectionRules(s: HomeState, cats: seq<Category>, id: string)
    ensures |cats| > 0 ==> Appear(s, cats) == s.(selectedCategoryID := cats[0].id,
                                                selectedSubcategoryID := FirstSubCategoryId(cats[0]))
    ensures var t := ChooseCategory(s, cats, Some(id));
            t.selectedCategoryID == Some(id)
            && (Some(id) != s.selectedCategoryID ==>
                  match FirstWhere(cats, CategoryId, Some(id))
                  case Some(c) => t.selectedSubcategoryID == FirstSubCategoryId(c)
                  case None => t.selectedSubcategoryID == s.selectedSubcategoryID)
  {
    if |cats| > 0 && cats[0].id.Some? {
      FirstWhereHead(cats, CategoryId, cats[0].id);
    }
  }

  /** A tap on item `item` of the grid: look for the cached SVG of the
      generated address (or of the empty file URL when the address does not
      parse); a hit opens that file on the canvas and downloads nothing, a
      miss turns the loader on and starts the download of the address. For
      an item id without `/` whose address parses, the file looked for is
      `Library/SVGs/<template file name>`. */
  function Tap(s: HomeState, g: GridSpec, item: string, d: Templates.Device): (r: TapResult)
    ensures var url := Templates.SvgUrl(g.category.id.UnwrapOr(""), g.subcategory.id.UnwrapOr(""), item);
            var lookup := if d.parses(url) then url else d.workingDirectoryName;
            (r.download.None? <==> Templates.CachePath(d.library, lookup) in d.files)
            && (r.download.None? ==>
                  r.state == s.(svgURL := Some(Templates.CachePath(d.library, lookup)), screen := Canvas))
            && (r.download.Some? ==> r.download == Some(url) && r.state == s.(showLoader := true))
    ensures '/' !in item && d.parses(Templates.SvgUrl(g.category.id.UnwrapOr(""), g.subcategory.id.UnwrapOr(""), item))
            ==> (r.download.None? <==>
                   Text.AppendingPathComponent(Templates.SvgCacheFolder(d.library), Templates.SvgFileName(item)) in d.files)
  {
    var url := Templates.SvgUrl(g.category.id.UnwrapOr(""), g.subcategory.id.UnwrapOr(""), item);
    var lookup := if d.parses(url) then url else d.workingDirectoryName;
    var r := match Templates.CachedFile(d.files, d.library, lookup)
             case Some(path) => TapResult(s.(svgURL := Some(path), screen := Canvas), None)
             case None => TapResult(s.(showLoader := true), Some(url));
    if '/' in item then r
    else
      Templates.TemplateCachePath(d.library, g.category.id.UnwrapOr(""), g.subcategory.id.UnwrapOr(""), item);
      r
  }

  /** The download's completion: the loader goes off either way, and only
      a success opens the downloaded file on the canvas. */
  function DownloadFinished(s: HomeState, result: Result<string, Templates.DownloadError>): (r: HomeState)
    ensures !r.showLoader
    ensures r.screen == (if result.Success? then Canvas else s.screen)
    ensures r.svgURL == (if result.Success? then Some(result.value) else s.svgURL)
    ensures r.selectedCategoryID == s.selectedCategoryID && r.selectedSubcategoryID == s.selectedSubcategoryID
  {
    match result
    case Success(path) => s.(svgURL := Some(path), showLoader := false, screen := Canvas)
    case Failure(_) => s.(showLoader := false)
  }

  /** After a cache miss, a successful download opens the file, and tapping
      the same item again finds that very file in the cache and starts no
      second download. */
  lemma SecondTapHitsCache(s: HomeState, g: GridSpec, item: string, d: Templates.Device,
                           folderCreated: bool, transfer: Templates.Transfer, moveOk: bool)
    requires Tap(s, g, item, d).download.Some?
    requires d.parses(Tap(s, g, item, d).download.value)
    ensures var url := Tap(s, g, item, d).download.value;
            var o := Templates.DownloadSvg(url, d.parses, d.library, d.files, folderCreated, transfer, moveOk);
            var s2 := DownloadFinished(Tap(s, g, item, d).state, o.result);
            o.result.Success? ==>
              s2.screen == Canvas && s2.svgURL == Some(o.result.value)
              && Tap(s2, g, item, d.(files := o.files)) == TapResult(s2, None)
  {
    var url := Tap(s, g, item, d).download.value;
    Templates.DownloadThenCached(url, d.parses, d.library, d.files, folderCreated, transfer, moveOk);
  }
}

=== FILE: paywall.dfy ===
/** The subscription sheet (`PremiumView.swift`): the period label of a
    product row, the four placeholder plans shown while no product has
    loaded, which row is highlighted, and the sheet's own view model. */
module Paywall {
  import opened Wrappers
  import opened Text
  import opened Products

  // ---------------------------------------------------------------------------
  // Period labels
  // ---------------------------------------------------------------------------

  /** The unit word: singular exactly when the value is 1. */
  function UnitWord(value: int, unit: PeriodUnit): string {
    match unit
    case Day => if value == 1 then "day" else "days"
    case Week => if value == 1 then "week" else "weeks"
    case Month => if value == 1 then "month" else "months"
    case Year => if value == 1 then "year" else "years"
    case UnknownUnit => "period"
  }

  /** `localizedSubscriptionPeriod(_:)`: the value, a space, the unit word. */
  function PeriodLabel(p: Period): (r: string)
    ensures |r| > |IntDecimal(p.value)| && r[..|IntDecimal(p.value)|] == IntDecimal(p.value)
    ensures r[|IntDecimal(p.value)|] == ' '
  {
    IntDecimal(p.value) + " " + UnitWord(p.value, p.unit)
  }

  /** A label reads back: the text before its first space is the value, the
      rest names the unit, in the plural exactly when a known unit has a
      value other than 1, and as `period` for an unknown unit whatever the
      value. */
  lemma PeriodLabelReadsBack(p: Period)
    ensures var r := PeriodLabel(p);
            var k := |IntDecimal(p.value)|;
            (forall j :: 0 <= j < k ==> r[j] != ' ')
            && r[k + 1..] == UnitWord(p.value, p.unit)
    ensures p.unit == UnknownUnit ==> UnitWord(p.value, p.unit) == "period"
    ensures p.unit != UnknownUnit ==>
              (UnitWord(p.value, p.unit)[|UnitWord(p.value, p.unit)| - 1] == 's' <==> p.value != 1)
  {
    var r := PeriodLabel(p);
    var k := |IntDecimal(p.value)|;
    forall j | 0 <= j < k
      ensures r[j] != ' '
    {
      assert r[j] == IntDecimal(p.value)[j];
    }
    assert r[k + 1..] == UnitWord(p.value, p.unit);
  }

  /** Two labels agree only for equal values and the same unit word. */
  lemma PeriodLabelInjective(p: Period, q: Period)
    requires PeriodLabel(p) == PeriodLabel(q)
    ensures p.value == q.value
    ensures UnitWord(p.value, p.unit) == UnitWord(q.value, q.unit)
  {
    PeriodLabelReadsBack(p);
    PeriodLabelReadsBack(q);
    var a := IntDecimal(p.value);
    var b := IntDecimal(q.value);
    var r := PeriodLabel(p);
    assert a == r[..|a|] == b;
    IntDecimalInjective(p.value, q.value);
  }

  /** Different integers print differently. */
  lemma IntDecimalInjective(a: int, b: int)
    requires IntDecimal(a) == IntDecimal(b)
    ensures a == b
  {
    if a < 0 && b < 0 {
      assert IntDecimal(a)[1..] == Decimal(-a);
      assert IntDecimal(b)[1..] == Decimal(-b);
      DecimalInjective(-a, -b);
    } else if a >= 0 && b >= 0 {
      DecimalInjective(a, b);
    }
  }

  // ---------------------------------------------------------------------------
  // Rows
  // ---------------------------------------------------------------------------

  /** A placeholder plan. */
  datatype PlanOption = PlanOption(title: string, price: string, badge: Option<string>)

  const FallbackOptions: seq<PlanOption> := [
    PlanOption("Weekly", "$68.63", Some("Basic")),
    PlanOption("Monthly", "$68.63", Some("Free trial")),
    PlanOption("Yearly", "$68.63", Some("35% Off")),
    PlanOption("Lifetime", "$68.63", Some("74% Off"))
  ]

  /** The product ids this sheet asks the store for. */
  const PlanProductIds: seq<string> := ["com.newapp.weekly", "com.newapp.monthly", "com.newapp.yearly", "com.newapp.lifetime"]

  /** The plan the sheet highlights before any tap. */
  const InitialPlanId: string := "Monthly"

  /** The state of the sheet: its view model's products and selection, and
      the highlighted placeholder plan. */
  datatype PaywallState = PaywallState(products: seq<Product>, selectedProduct: Option<Product>, selectedPlanID: string)

  const InitialPaywall: PaywallState := PaywallState([], None, InitialPlanId)

  /** One row of the plan list and whether it is highlighted. */
  datatype Row = OptionRow(option: PlanOption, isSelected: bool) | ProductRow(product: Product, isSelected: bool)

  /** The rows: the placeholder plans while no product is loaded, else one
      row per product. */
  function Rows(s: PaywallState): (r: seq<Row>)
    ensures |s.products| == 0 ==> |r| == |FallbackOptions|
    ensures |s.products| > 0 ==> |r| == |s.products|
    ensures forall i :: 0 <= i < |r| ==>
              if |s.products| == 0
              then r[i].OptionRow? && r[i].option == FallbackOptions[i]
                   && (r[i].isSelected <==> s.selectedPlanID == FallbackOptions[i].title)
              else r[i].ProductRow? && r[i].product == s.products[i]
                   && (r[i].isSelected <==> s.selectedProduct.Some? && s.selectedProduct.value.id == s.products[i].id)
  {
    if |s.products| == 0 then
      seq(|FallbackOptions|, i requires 0 <= i < |FallbackOptions| =>
            OptionRow(FallbackOptions[i], s.selectedPlanID == FallbackOptions[i].title))
    else
      seq(|s.products|, i requires 0 <= i < |s.products| =>
            ProductRow(s.products[i], s.selectedProduct.Some? && s.selectedProduct.value.id == s.products[i].id))
  }

  /** A tap on a placeholder row highlights its title. */
  function TapOption(s: PaywallState, option: PlanOption): PaywallState {
    s.(selectedPlanID := option.title)
  }

  /** The placeholder titles are distinct, so exactly one placeholder row is
      highlighted at first and after any tap on one; the first is
      `Monthly`. */
  lemma OneOptionHighlighted(s: PaywallState, i: nat)
    requires |s.products| == 0 && i < |FallbackOptions|
    ensures Rows(InitialPaywall)[1].isSelected
    ensures forall j :: 0 <= j < |FallbackOptions| ==> (Rows(TapOption(s, FallbackOptions[i]))[j].isSelected <==> j == i)
  {
  }

  /** `loadProducts()`: the loaded products, the first one selected; a
      failed load changes nothing. */
  function LoadProducts(s: PaywallState, loaded: Result<seq<Product>, string>): (r: PaywallState)
    ensures loaded.Failure? ==> r == s
    ensures loaded.Success? ==> r.products == loaded.value && r.selectedPlanID == s.selectedPlanID
    ensures loaded.Success? ==> (r.selectedProduct.Some? <==> |loaded.value| > 0)
    ensures r.selectedProduct.Some? && loaded.Success? ==> r.selectedProduct.value == loaded.value[0]
  {
    match loaded
    case Failure(_) => s
    case Success(ps) => s.(products := ps, selectedProduct := if |ps| == 0 then None else Some(ps[0]))
  }

  /** `select(product:)`. */
  function Select(s: PaywallState, p: Product): PaywallState {
    s.(selectedProduct := Some(p))
  }

  /** `purchaseSelected()`: the product a purchase starts for, none without a
      selection. The result is only logged, so the state does not change. */
  function PurchaseSelected(s: PaywallState): (r: Option<Product>)
    ensures r.None? <==> s.selectedProduct.None?
  {
    s.selectedProduct
  }

  /** After a load of products the first row is highlighted and a purchase
      buys the first product; a tap on a product row highlights every row
      with its id and makes a purchase buy it; before any load nothing is
      bought. */
  lemma SelectionRules(s: PaywallState, ps: seq<Product>, k: nat)
    requires |ps| > 0
    ensures Rows(LoadProducts(s, Success(ps)))[0].isSelected
    ensures PurchaseSelected(LoadProducts(s, Success(ps))) == Some(ps[0])
    ensures k < |ps| ==> var t := Select(LoadProducts(s, Success(ps)), ps[k]);
                         PurchaseSelected(t) == Some(ps[k])
                         && forall j :: 0 <= j < |ps| ==> (Rows(t)[j].isSelected <==> ps[j].id == ps[k].id)
    ensures PurchaseSelected(InitialPaywall).None?
  {
  }
}

=== FILE: products.dfy ===
/** What the app reads of a StoreKit `Product`: its id, display name and
    price, and the subscription period if it is a subscription. */
module Products {
  import opened Wrappers

  datatype PeriodUnit = Day | Week | Month | Year | UnknownUnit

  datatype Period = Period(value: int, unit: PeriodUnit)

  datatype Product = Product(id: string, displayName: string, displayPrice: string, period: Option<Period>)

  /** The key `first(where: { $0.id == id })` compares. */
  function ProductKey(p: Product): Option<string> {
    Some(p.id)
  }
}

=== FILE: subscription.dfy ===
/** The app's subscription view model (`PremiumViewModel.swift`): the
    loaded products in the configured order, the entitlement scan that sets
    the purchased flag and the set of purchased ids, the persisted pro flag,
    and the outcome of a purchase. StoreKit's answers (the loaded products,
    the entitlements, the purchase result) are inputs, and so are the
    configured product ids. */
module Subscription {
  import opened Wrappers
  import opened Catalog
  import opened Products
  import UserStore

  datatype SubState = SubState(products: seq<Product>, selectedProduct: Option<Product>, isProductPurchased: bool,
                               purchasedProductIDs: set<string>, store: UserStore.Store)

  /** Whether each store call succeeds: the fetches and the saves. */
  datatype StoreIo = StoreIo(fetchOk: bool, saveOk: bool)

  // ---------------------------------------------------------------------------
  // Products
  // ---------------------------------------------------------------------------

  /** `productIDs.compactMap { id in storeProducts.first(where: { $0.id == id }) }`:
      each ordered product is the store's first product with its id. */
  function OrderByIds(ids: seq<string>, storeProducts: seq<Product>): (r: seq<Product>)
    ensures |r| <= |ids|
    ensures forall p :: p in r ==> p in storeProducts && p.id in ids
    ensures forall k :: 0 <= k < |r| ==> FirstWhere(storeProducts, ProductKey, Some(r[k].id)) == Some(r[k])
  {
    if |ids| == 0 then []
    else
      var rest := OrderByIds(ids[1..], storeProducts);
      match FirstWhere(storeProducts, ProductKey, Some(ids[0]))
      case None => rest
      case Some(p) => [p] + rest
  }

  /** The ids of `ids` that some store product has, in order. */
  function AvailableIds(ids: seq<string>, storeProducts: seq<Product>): seq<string> {
    if |ids| == 0 then []
    else
      var rest := AvailableIds(ids[1..], storeProducts);
      if exists p :: p in storeProducts && p.id == ids[0] then [ids[0]] + rest else rest
  }

  function Ids(ps: seq<Product>): seq<string> {
    if |ps| == 0 then [] else [ps[0].id] + Ids(ps[1..])
  }

  /** The ordered products carry exactly the configured ids that the store
      returned, in the configured order. */
  lemma {:induction false} OrderFollowsIds(ids: seq<string>, storeProducts: seq<Product>)
    ensures Ids(OrderByIds(ids, storeProducts)) == AvailableIds(ids, storeProducts)
  {
    if |ids| > 0 {
      OrderFollowsIds(ids[1..], storeProducts);
      var found := FirstWhere(storeProducts, ProductKey, Some(ids[0]));
      if found.Some? {
        var rest := OrderByIds(ids[1..], storeProducts);
        assert ([found.value] + rest)[1..] == rest;
      }
    }
  }

  /** `loadProducts()` as written: the ordered products are stored and,
      when there are any, the SECOND becomes the selection; with exactly one
      product that index is out of range and the app traps (`None`). A
      failed load changes nothing. */
  function LoadProducts(s: SubState, ids: seq<string>, loaded: Result<seq<Product>, string>): (r: Option<SubState>)
    ensures loaded.Failure? ==> r == Some(s)
    ensures loaded.Success? ==>
              (r.None? <==> |OrderByIds(ids, loaded.value)| == 1)
    ensures r.Some? && loaded.Success? ==> r.value.products == OrderByIds(ids, loaded.value)
    ensures r.Some? && loaded.Success? && |r.value.products| > 0 ==> r.value.selectedProduct == Some(r.value.products[1])
    ensures r.Some? && |r.value.products| == 0 ==> r.value.selectedProduct == s.selectedProduct
    ensures r.Some? ==> r.value.isProductPurchased == s.isProductPurchased
                        && r.value.purchasedProductIDs == s.purchasedProductIDs && r.value.store == s.store
  {
    match loaded
    case Failure(_) => Some(s)
    case Success(storeProducts) =>
      var sorted := OrderByIds(ids, storeProducts);
      if |sorted| == 0 then Some(s.(products := sorted))
      else if |sorted| == 1 then None
      else Some(s.(products := sorted, selectedProduct := Some(sorted[1])))
  }

  /** A store that offers only one of the configured products crashes the
      load. */
  lemma LoadProductsTrapsOnOneProduct(s: SubState)
    ensures var weekly := Product("com.app.weekly", "Weekly", "$1.99", None);
            LoadProducts(s, ["com.app.weekly", "com.app.monthly"], Success([weekly])).None?
  {
    var weekly := Product("com.app.weekly", "Weekly", "$1.99", None);
    assert FirstWhere([weekly], ProductKey, Some("com.app.weekly")) == Some(weekly);
    assert FirstWhere([weekly], ProductKey, Some("com.app.monthly")).None?;
    assert OrderByIds(["com.app.weekly", "com.app.monthly"], [weekly])
        == [weekly] + OrderByIds(["com.app.monthly"], [weekly]);
  }

  /** The load as evidently intended: the second product (the monthly plan
      of the usual order) is preselected when there is one, otherwise the
      only product; it never traps and agrees with the load as written
      whenever that does not trap. */
  function LoadProductsSafe(s: SubState, ids: seq<string>, loaded: Result<seq<Product>, string>): (r: SubState)
    ensures loaded.Failure? ==> r == s
    ensures loaded.Success? ==> r.products == OrderByIds(ids, loaded.value)
    ensures loaded.Success? && |r.products| > 0 ==> r.selectedProduct.Some? && r.selectedProduct.value in r.products
    ensures LoadProducts(s, ids, loaded).Some? ==> LoadProducts(s, ids, loaded) == Some(r)
  {
    match loaded
    case Failure(_) => s
    case Success(storeProducts) =>
      var sorted := OrderByIds(ids, storeProducts);
      if |sorted| == 0 then s.(products := sorted)
      else if |sorted| == 1 then s.(products := sorted, selectedProduct := Some(sorted[0]))
      else s.(products := sorted, selectedProduct := Some(sorted[1]))
  }

  /** `select(product:)`. */
  function Select(s: SubState, p: Product): (r: SubState)
    ensures r.selectedProduct == Some(p) && r.products == s.products && r.store == s.store
    ensures r.isProductPurchased == s.isProductPurchased && r.purchasedProductIDs == s.purchasedProductIDs
  {
    s.(selectedProduct := Some(p))
  }

  // ---------------------------------------------------------------------------
  // The persisted pro flag
  // ---------------------------------------------------------------------------

  /** `saveProStatusToCoreData(_:)`: a new record when the fetch finds none,
      otherwise the first record is rewritten. */
  function SaveProStatus(store: UserStore.Store, isPro: bool, io: StoreIo): (r: UserStore.Store)
    ensures io.fetchOk && |UserStore.Fetch(store, true)| > 0 ==> |r.context| == |store.context|
    ensures io.fetchOk && |UserStore.Fetch(store, true)| == 0 ==>
              r.context == store.context + [UserStore.User(Some(UserStore.Encode(UserStore.UserSaveModel(isPro))))]
    ensures !io.fetchOk ==>
              r.context == store.context + [UserStore.User(Some(UserStore.Encode(UserStore.UserSaveModel(isPro))))]
  {
    if |UserStore.Fetch(store, io.fetchOk)| == 0 then UserStore.SaveUserModel(store, UserStore.UserSaveModel(isPro), io.saveOk)
    else UserStore.Update(store, io.fetchOk, m => true, (m: UserStore.UserSaveModel) => m.(isPro := isPro), io.saveOk)
  }

  /** After saving the flag, the first model a fetch returns carries it and
      the models after it are kept; when the store's fetch fails the save
      appends a new record even if records exist. */
  lemma SaveProStatusStored(store: UserStore.Store, isPro: bool, io: StoreIo)
    ensures io.fetchOk ==>
              var after := UserStore.Fetch(SaveProStatus(store, isPro, io), true);
              |after| == (if |UserStore.Fetch(store, true)| == 0 then 1 else |UserStore.Fetch(store, true)|)
              && after[0].isPro == isPro
    ensures io.fetchOk && |UserStore.Fetch(store, true)| > 0 ==>
              UserStore.Fetch(SaveProStatus(store, isPro, io), true)
              == [UserStore.UserSaveModel(isPro)] + UserStore.Fetch(store, true)[1..]
    ensures !io.fetchOk ==>
              UserStore.Fetch(SaveProStatus(store, isPro, io), true) == UserStore.Fetch(store, true) + [UserStore.UserSaveModel(isPro)]
  {
    UserStore.FetchAfterSave(store, UserStore.UserSaveModel(isPro), io.saveOk);
    if io.fetchOk && |UserStore.Fetch(store, true)| > 0 {
      var before := UserStore.Fetch(store, true);
      UserStore.FetchAfterUpdate(store, m => true, (m: UserStore.UserSaveModel) => m.(isPro := isPro), io.saveOk);
      assert UserStore.UpdateFirst(before, m => true, (m: UserStore.UserSaveModel) => m.(isPro := isPro))
             == [UserStore.UserSaveModel(isPro)] + before[1..];
    }
  }

  /** `updatePurchaseStatus(isPurchased:)`: the flag, and the same value
      persisted. */
  function UpdatePurchaseStatus(s: SubState, isPurchased: bool, io: StoreIo): (r: SubState)
    ensures r.isProductPurchased == isPurchased
    ensures r.products == s.products && r.selectedProduct == s.selectedProduct
    ensures r.purchasedProductIDs == s.purchasedProductIDs
  {
    s.(isProductPurchased := isPurchased, store := SaveProStatus(s.store, isPurchased, io))
  }

  /** The flag shown and the flag stored agree after an update. */
  lemma UpdateKeepsFlagsInStep(s: SubState, isPurchased: bool, io: StoreIo)
    requires io.fetchOk
    ensures var r := UpdatePurchaseStatus(s, isPurchased, io);
            |UserStore.Fetch(r.store, true)| > 0 && UserStore.Fetch(r.store, true)[0].isPro == r.isProductPurchased
  {
    SaveProStatusStored(s.store, isPurchased, io);
  }

  // ---------------------------------------------------------------------------
  // Entitlements
  // ---------------------------------------------------------------------------

  /** One element of `Transaction.currentEntitlements`. */
  datatype Entitlement = Entitlement(verified: bool, productID: string, revoked: bool)

  /** One step of the entitlement scan: unverified entries are skipped; a
      live one adds its id and sets the flag, a revoked one removes its id
      and clears the flag. */
  function ScanStep(s: SubState, e: Entitlement, io: StoreIo): (r: SubState)
    ensures !e.verified ==> r == s
    ensures r.products == s.products && r.selectedProduct == s.selectedProduct
    ensures e.verified ==> r.isProductPurchased == !e.revoked
                           && (e.productID in r.purchasedProductIDs <==> !e.revoked)
                           && forall id :: id != e.productID ==> (id in r.purchasedProductIDs <==> id in s.purchasedProductIDs)
    ensures e.verified && io.fetchOk ==>
              |UserStore.Fetch(r.store, true)| > 0 && UserStore.Fetch(r.store, true)[0].isPro == r.isProductPurchased
  {
    if !e.verified then s
    else
      var ids := if !e.revoked then s.purchasedProductIDs + {e.productID} else s.purchasedProductIDs - {e.productID};
      var r := UpdatePurchaseStatus(s.(purchasedProductIDs := ids), !e.revoked, io);
      if io.fetchOk then UpdateKeepsFlagsInStep(s.(purchasedProductIDs := ids), !e.revoked, io); r else r
  }

  /** `checkPurchaseStatus()` over the entitlements in order. */
  function CheckPurchaseStatus(s: SubState, ents: seq<Entitlement>, io: StoreIo): (r: SubState)
    ensures r.products == s.products && r.selectedProduct == s.selectedProduct
  {
    if |ents| == 0 then s
    else ScanStep(CheckPurchaseStatus(s, ents[..|ents| - 1], io), ents[|ents| - 1], io)
  }

  /** The last verified entitlement for `id`, if any. */
  function LastVerifiedFor(ents: seq<Entitlement>, id: string): (r: Option<Entitlement>)
    ensures r.Some? ==> r.value in ents && r.value.verified && r.value.productID == id
  {
    if |ents| == 0 then None
    else
      var e := ents[|ents| - 1];
      if e.verified && e.productID == id then Some(e) else LastVerifiedFor(ents[..|ents| - 1], id)
  }

  /** The last verified entitlement of all. */
  function LastVerified(ents: seq<Entitlement>): (r: Option<Entitlement>)
    ensures r.Some? ==> r.value in ents && r.value.verified
    ensures r.None? <==> forall e :: e in ents ==> !e.verified
  {
    if |ents| == 0 then None
    else if ents[|ents| - 1].verified then Some(ents[|ents| - 1]) else LastVerified(ents[..|ents| - 1])
  }

  /** After the scan an id is in the purchased set exactly when its last
      verified entitlement is live, or when it has none and was in the set
      before; the flag reflects the last verified entitlement of all, and
      is unchanged when there is none. */
  lemma {:induction false} ScanMeaning(s: SubState, ents: seq<Entitlement>, io: StoreIo, id: string)
    ensures var r := CheckPurchaseStatus(s, ents, io);
            id in r.purchasedProductIDs <==>
              match LastVerifiedFor(ents, id)
              case Some(e) => !e.revoked
              case None => id in s.purchasedProductIDs
    ensures var r := CheckPurchaseStatus(s, ents, io);
            r.isProductPurchased ==
              match LastVerified(ents)
              case Some(e) => !e.revoked
              case None => s.isProductPurchased
  {
    if |ents| > 0 {
      ScanMeaning(s, ents[..|ents| - 1], io, id);
    }
  }

  // ---------------------------------------------------------------------------
  // Purchase
  // ---------------------------------------------------------------------------

  /** How `product.purchase()` ended. */
  datatype PurchaseResult = Purchased | UserCancelled | Pending | UnknownResult | Threw

  /** `purchaseSelected(compeletion:)`: the new state and how many times the
      completion ran. Without a selection nothing happens; otherwise the
      completion runs once, after a success stores `true` and rescans the
      entitlements, after a pending result stores nothing, and after any
      other result stores `false`. */
  function PurchaseSelected(s: SubState, result: PurchaseResult, ents: seq<Entitlement>, io: StoreIo)
    : (r: (SubState, nat))
    ensures s.selectedProduct.None? ==> r == (s, 0)
    ensures s.selectedProduct.Some? ==> r.1 == 1
    ensures result == Pending ==> r.0 == s
    ensures r.0.products == s.products && r.0.selectedProduct == s.selectedProduct
  {
    if s.selectedProduct.None? then (s, 0)
    else
      match result
      case Purchased => (CheckPurchaseStatus(s.(store := SaveProStatus(s.store, true, io)), ents, io), 1)
      case Pending => (s, 1)
      case _ => (s.(store := SaveProStatus(s.store, false, io)), 1)
  }

  /** What a purchase leaves in the store: after a cancelled, unknown or
      failed purchase the first stored model says not pro; after a success
      it says what the last verified entitlement says, and pro when there
      is none. Without a selection, or while pending, nothing is stored. */
  lemma PurchaseStoresOutcome(s: SubState, result: PurchaseResult, ents: seq<Entitlement>, io: StoreIo)
    requires io.fetchOk
    ensures s.selectedProduct.None? || result == Pending ==> PurchaseSelected(s, result, ents, io).0.store == s.store
    ensures s.selectedProduct.Some? && result != Pending ==>
              var after := UserStore.Fetch(PurchaseSelected(s, result, ents, io).0.store, true);
              |after| > 0
              && after[0].isPro == (result == Purchased && match LastVerified(ents) case Some(e) => !e.revoked case None => true)
  {
    if s.selectedProduct.Some? && result == Purchased {
      var s1 := s.(store := SaveProStatus(s.store, true, io));
      SaveProStatusStored(s.store, true, io);
      if LastVerified(ents).Some? {
        ScanEndsInStep(s1, ents, io);
        ScanMeaning(s1, ents, io, "");
      } else {
        NoVerifiedScanChangesNothing(s1, ents, io);
      }
    } else if s.selectedProduct.Some? && result != Pending {
      SaveProStatusStored(s.store, false, io);
    }
  }

  /** A scan that meets a verified entitlement leaves the shown flag and
      the first stored flag in step, whatever it started from. */
  lemma {:induction false} ScanEndsInStep(s: SubState, ents: seq<Entitlement>, io: StoreIo)
    requires io.fetchOk && LastVerified(ents).Some?
    ensures var r := CheckPurchaseStatus(s, ents, io);
            |UserStore.Fetch(r.store, true)| > 0 && UserStore.Fetch(r.store, true)[0].isPro == r.isProductPurchased
  {
    if !ents[|ents| - 1].verified {
      ScanEndsInStep(s, ents[..|ents| - 1], io);
    }
  }

  /** Without a verified entitlement the scan changes nothing. */
  lemma {:induction false} NoVerifiedScanChangesNothing(s: SubState, ents: seq<Entitlement>, io: StoreIo)
    requires LastVerified(ents).None?
    ensures CheckPurchaseStatus(s, ents, io) == s
  {
    if |ents| > 0 {
      NoVerifiedScanChangesNothing(s, ents[..|ents| - 1], io);
    }
  }

  /** A scan over unverified entitlements changes nothing: such a list has
      no last verified entitlement. */
  lemma UnverifiedScanChangesNothing(s: SubState, ents: seq<Entitlement>, io: StoreIo)
    requires forall e :: e in ents ==> !e.verified
    ensures CheckPurchaseStatus(s, ents, io) == s
  {
    NoVerifiedScanChangesNothing(s, ents, io);
  }
}

=== FILE: templates.dfy ===
/** Template URLs and the SVG download cache (`Constants.swift`): the remote
    PNG and SVG addresses of a catalogue item, the download of an SVG into
    `Library/SVGs`, and the lookup of a previously downloaded copy. The file
    system is the set of paths that exist; `URL(string:)` is the parameter
    `parses`. */
module Templates {
  import opened Wrappers
  import opened Text

  const TemplatesBase: string := "https://designs-files.s3.us-east-1.amazonaws.com/templates"

  /** Every template SVG file name ends with this. */
  const SvgSuffix: string := "_20-01.svg"

  /** `generatePNGURL(for:subcategoryID:itemID:)`. */
  function PngUrl(categoryID: string, subcategoryID: string, itemID: string): (url: string)
    ensures '/' !in itemID ==> LastPathComponent(url) == itemID + ".png"
  {
    var folder := TemplatesBase + "/" + categoryID + "/" + subcategoryID + "/png";
    var name := itemID + ".png";
    var url := TemplatesBase + "/" + categoryID + "/" + subcategoryID + "/png/" + itemID + ".png";
    assert url == AppendingPathComponent(folder, name);
    if '/' in itemID then url
    else
      assert forall k :: 0 <= k < |itemID| ==> name[k] == itemID[k];
      LastPathComponentOfAppended(folder, name);
      url
  }

  /** The folder part of a template SVG address. */
  function SvgFolderUrl(categoryID: string, subcategoryID: string): string {
    TemplatesBase + "/" + categoryID + "/" + subcategoryID
  }

  /** The file name of a template SVG: the item id with its first character
      upper-cased, then `_20-01.svg`. */
  function SvgFileName(itemID: string): (name: string)
    ensures |name| == |itemID| + |SvgSuffix|
    ensures name[..|itemID|] == Capitalized(itemID) && name[|itemID|..] == SvgSuffix
  {
    Capitalized(itemID) + SvgSuffix
  }

  /** `generateSVGURL(for:subcategoryID:itemID:)`: the base, the category and
      subcategory folders, then the file name. */
  function SvgUrl(categoryID: string, subcategoryID: string, itemID: string): (url: string)
    ensures url == AppendingPathComponent(SvgFolderUrl(categoryID, subcategoryID), SvgFileName(itemID))
  {
    TemplatesBase + "/" + categoryID + "/" + subcategoryID + "/" + Capitalized(itemID) + SvgSuffix
  }

  /** An item id without `/` gives a file name without `/`. */
  lemma FileNameHasNoSlash(itemID: string)
    requires '/' !in itemID
    ensures '/' !in SvgFileName(itemID)
  {
    var name := SvgFileName(itemID);
    forall k | 0 <= k < |name|
      ensures name[k] != '/'
    {
      if k < |itemID| {
        if k == 0 {
          assert name[0] == UpperChar(itemID[0]);
        } else {
          assert name[k] == itemID[k];
        }
      } else {
        assert name[k] == SvgSuffix[k - |itemID|];
      }
    }
  }

  /** Every template SVG address starts with the templates base and ends with
      `_20-01.svg`. */
  lemma SvgUrlShape(categoryID: string, subcategoryID: string, itemID: string)
    ensures var url := SvgUrl(categoryID, subcategoryID, itemID);
            |url| >= |TemplatesBase| + |SvgSuffix|
            && url[..|TemplatesBase|] == TemplatesBase
            && url[|url| - |SvgSuffix|..] == SvgSuffix
  {
    var folder := SvgFolderUrl(categoryID, subcategoryID);
    var name := SvgFileName(itemID);
    var url := folder + "/" + name;
    assert folder[..|TemplatesBase|] == TemplatesBase;
    assert url[..|TemplatesBase|] == folder[..|TemplatesBase|];
    assert url[|url| - |SvgSuffix|..] == name[|itemID|..];
  }

  /** When the item id has no `/`, the SVG file name is the address's last
      path component. */
  lemma SvgUrlLastComponent(categoryID: string, subcategoryID: string, itemID: string)
    requires '/' !in itemID
    ensures LastPathComponent(SvgUrl(categoryID, subcategoryID, itemID)) == SvgFileName(itemID)
  {
    FileNameHasNoSlash(itemID);
    LastPathComponentOfAppended(SvgFolderUrl(categoryID, subcategoryID), SvgFileName(itemID));
  }

  /** The PNG address ends with the item id and `.png`, below the templates
      base. */
  lemma PngUrlShape(categoryID: string, subcategoryID: string, itemID: string)
    ensures var url := PngUrl(categoryID, subcategoryID, itemID);
            |url| >= |TemplatesBase| + |itemID| + 4
            && url[..|TemplatesBase|] == TemplatesBase
            && url[|url| - |itemID| - 4..] == itemID + ".png"
  {
    var url := PngUrl(categoryID, subcategoryID, itemID);
    assert url == TemplatesBase + ("/" + categoryID + "/" + subcategoryID + "/png/" + itemID + ".png");
    assert url == (TemplatesBase + "/" + categoryID + "/" + subcategoryID + "/png/") + (itemID + ".png");
  }

  // ---------------------------------------------------------------------------
  // Download and cache
  // ---------------------------------------------------------------------------

  /** What the app finds on the machine: the user's Library folder, the
      paths that exist, which strings `URL(string:)` accepts, and the last
      path component of `URL(fileURLWithPath: "")`, which Foundation
      resolves against the working directory. */
  datatype Device = Device(library: string, files: set<string>, parses: string -> bool, workingDirectoryName: string)

  /** The cache folder `Library/SVGs`. */
  function SvgCacheFolder(library: string): string {
    AppendingPathComponent(library, "SVGs")
  }

  /** Where the SVG behind `url` is stored: the cache folder plus the URL's
      last path component. */
  function CachePath(library: string, url: string): string {
    AppendingPathComponent(SvgCacheFolder(library), LastPathComponent(url))
  }

  /** `checkIfFileExists(fileURL:)`: the cached copy when the file exists. */
  function CachedFile(files: set<string>, library: string, url: string): (r: Option<string>)
    ensures r.Some? <==> CachePath(library, url) in files
    ensures r.Some? ==> r.value == CachePath(library, url)
  {
    var destination := CachePath(library, url);
    if destination in files then Some(destination) else None
  }

  datatype DownloadError = InvalidUrl | FolderCreationFailed | TransferFailed | NoTemporaryFile | MoveFailed

  /** What the download task delivered: an error, no temporary file, or a
      temporary file to be moved into place. */
  datatype Transfer = TransferError | NoTempFile | Delivered

  /** The completion value of `downloadSVG`, whether the network task was
      started, and the files afterwards. */
  datatype DownloadOutcome = DownloadOutcome(result: Result<string, DownloadError>, started: bool, files: set<string>)

  /** `downloadSVG(from:completion:)`. An unparseable URL fails before
      anything else; a failed folder creation fails before the download begins;
      a delivered file is moved to the cache path, which fails when that
      path already exists or the move itself fails. */
  function DownloadSvg(url: string, parses: string -> bool, library: string, files: set<string>,
                       folderCreated: bool, transfer: Transfer, moveOk: bool): (o: DownloadOutcome)
    ensures !parses(url) ==> o == DownloadOutcome(Failure(InvalidUrl), false, files)
    ensures parses(url) && !folderCreated ==> o == DownloadOutcome(Failure(FolderCreationFailed), false, files)
    ensures o.result.Success? ==> o.started && o.result.value == CachePath(library, url)
                                  && CachePath(library, url) !in files
                                  && o.files == files + {CachePath(library, url)}
    ensures o.result.Failure? ==> o.files == files
    ensures o.result.Success? <==> parses(url) && folderCreated && transfer == Delivered && moveOk
                                   && CachePath(library, url) !in files
    ensures o.started <==> parses(url) && folderCreated
    ensures parses(url) && folderCreated && transfer == TransferError ==> o.result == Failure(TransferFailed)
    ensures parses(url) && folderCreated && transfer == NoTempFile ==> o.result == Failure(NoTemporaryFile)
    ensures parses(url) && folderCreated && transfer == Delivered && (CachePath(library, url) in files || !moveOk)
            ==> o.result == Failure(MoveFailed)
  {
    if !parses(url) then DownloadOutcome(Failure(InvalidUrl), false, files)
    else if !folderCreated then DownloadOutcome(Failure(FolderCreationFailed), false, files)
    else
      var destination := CachePath(library, url);
      match transfer
      case TransferError => DownloadOutcome(Failure(TransferFailed), true, files)
      case NoTempFile => DownloadOutcome(Failure(NoTemporaryFile), true, files)
      case Delivered =>
        if destination in files || !moveOk then DownloadOutcome(Failure(MoveFailed), true, files)
        else DownloadOutcome(Success(destination), true, files + {destination})
  }

  /** The download destination and the cache lookup agree: after a
      successful download the lookup for the same URL finds exactly the
      reported file, and a download never succeeds for a URL whose cached
      copy already exists. */
  lemma DownloadThenCached(url: string, parses: string -> bool, library: string, files: set<string>,
                           folderCreated: bool, transfer: Transfer, moveOk: bool)
    ensures var o := DownloadSvg(url, parses, library, files, folderCreated, transfer, moveOk);
            o.result.Success? ==> CachedFile(o.files, library, url) == Some(o.result.value)
    ensures CachedFile(files, library, url).Some?
            ==> DownloadSvg(url, parses, library, files, folderCreated, transfer, moveOk).result.Failure?
  {
  }

  /** For a template item, the cached copy is `Library/SVGs/<file name>`,
      independent of category and subcategory. */
  lemma TemplateCachePath(library: string, categoryID: string, subcategoryID: string, itemID: string)
    requires '/' !in itemID
    ensures CachePath(library, SvgUrl(categoryID, subcategoryID, itemID))
            == AppendingPathComponent(SvgCacheFolder(library), SvgFileName(itemID))
  {
    SvgUrlLastComponent(categoryID, subcategoryID, itemID);
  }
}

=== FILE: text.dfy ===
/** String helpers the app relies on: ASCII case mapping, `%d` / `%02d`
    formatting, `lastPathComponent`, `pathExtension`, `deletingPathExtension`
    and `replacingOccurrences(of:with:)`. Strings are sequences of characters;
    case mapping covers the ASCII letters only. */
module Text {
  import opened Wrappers

  // ---------------------------------------------------------------------------
  // Case mapping
  // ---------------------------------------------------------------------------

  predicate IsUpperAscii(c: char) { 'A' <= c <= 'Z' }
  predicate IsLowerAscii(c: char) { 'a' <= c <= 'z' }

  function UpperChar(c: char): char {
    if IsLowerAscii(c) then (c as int - 32) as char else c
  }

  function LowerChar(c: char): char {
    if IsUpperAscii(c) then (c as int + 32) as char else c
  }

  /** `String.lowercased()`. */
  function Lowercased(s: string): (r: string)
    ensures |r| == |s|
    ensures forall i :: 0 <= i < |s| ==> r[i] == LowerChar(s[i])
  {
    seq(|s|, i requires 0 <= i < |s| => LowerChar(s[i]))
  }

  /** `s.prefix(1).uppercased() + s.dropFirst()`: only the first character
      changes, and an empty string stays empty. */
  function Capitalized(s: string): (r: string)
    ensures |r| == |s|
    ensures |s| > 0 ==> r[0] == UpperChar(s[0]) && r[1..] == s[1..]
  {
    if |s| == 0 then "" else [UpperChar(s[0])] + s[1..]
  }

  /** A lowercased string has no upper-case ASCII letter, so lowercasing twice
      is the same as lowercasing once. */
  lemma LowercasedIdempotent(s: string)
    ensures forall i :: 0 <= i < |s| ==> !IsUpperAscii(Lowercased(s)[i])
    ensures Lowercased(Lowercased(s)) == Lowercased(s)
  {
  }

  // ---------------------------------------------------------------------------
  // Decimal formatting (`"\(n)"`, `String(format: "%02d", n)`)
  // ---------------------------------------------------------------------------

  predicate IsDigit(c: char) { '0' <= c <= '9' }

  predicate AllDigits(s: string) {
    forall i :: 0 <= i < |s| ==> IsDigit(s[i])
  }

  function DigitChar(d: nat): (c: char)
    requires d < 10
    ensures IsDigit(c)
  {
    ('0' as int + d) as char
  }

  /** The value a string of digits denotes in base ten; the partner of
      `Decimal` and `ZeroPadded2`, used to show they lose no information. */
  function DigitsValue(s: string): nat
    requires AllDigits(s)
  {
    if |s| == 0 then 0
    else 10 * DigitsValue(s[..|s| - 1]) + (s[|s| - 1] as int - '0' as int)
  }

  /** `"\(n)"` for a natural number: at least one digit, one digit exactly for
      0..9, and reading the digits back gives `n`. */
  function Decimal(n: nat): (s: string)
    ensures AllDigits(s) && DigitsValue(s) == n
    ensures |s| >= 1 && (|s| == 1 <==> n < 10)
    decreases n
  {
    if n < 10 then
      [DigitChar(n)]
    else
      var prefix := Decimal(n / 10);
      var s := prefix + [DigitChar(n % 10)];
      assert s[..|s| - 1] == prefix;
      s
  }

  /** `String(format: "%02d", n)`: at least two digits, zero-padded on the
      left, and reading the digits back gives `n`. */
  function ZeroPadded2(n: nat): (s: string)
    ensures AllDigits(s) && DigitsValue(s) == n
    ensures |s| >= 2
    ensures n >= 10 ==> s == Decimal(n)
  {
    if n < 10 then
      var s := ['0'] + Decimal(n);
      assert s[..1] == ['0'];
      s
    else
      Decimal(n)
  }

  /** `"\(i)"` for any Swift `Int`: a minus sign precedes the digits exactly
      when the value is negative. */
  function IntDecimal(i: int): (s: string)
    ensures |s| >= 1 && (s[0] == '-' <==> i < 0)
    ensures forall k :: 0 < k < |s| ==> IsDigit(s[k])
  {
    if i < 0 then "-" + Decimal(-i) else Decimal(i)
  }

  /** Different numbers never print alike, padded or not. */
  lemma DecimalInjective(a: nat, b: nat)
    ensures Decimal(a) == Decimal(b) ==> a == b
    ensures ZeroPadded2(a) == ZeroPadded2(b) ==> a == b
  {
  }

  // ---------------------------------------------------------------------------
  // Path components
  // ---------------------------------------------------------------------------

  /** Position of the last occurrence of `c` in `s`, if any. */
  function LastIndexOf(s: string, c: char): (r: Option<nat>)
    ensures r.Some? ==> r.value < |s| && s[r.value] == c
                        && forall j :: r.value < j < |s| ==> s[j] != c
    ensures r.None? ==> forall j :: 0 <= j < |s| ==> s[j] != c
  {
    if |s| == 0 then None
    else if s[|s| - 1] == c then Some(|s| - 1)
    else LastIndexOf(s[..|s| - 1], c)
  }

  /** `URL.appendingPathComponent(name)` on a path held as a string. */
  function AppendingPathComponent(dir: string, name: string): string {
    dir + "/" + name
  }

  /** `URL.lastPathComponent`: the text after the last `/`. */
  function LastPathComponent(path: string): (r: string)
    ensures '/' !in r
  {
    match LastIndexOf(path, '/')
    case None => path
    case Some(i) => path[i + 1..]
  }

  /** `URL.pathExtension` of a file name: the text after the last `.`, or
      empty when there is none. */
  function PathExtension(name: string): (r: string)
    ensures '.' !in r
  {
    match LastIndexOf(name, '.')
    case None => ""
    case Some(i) => name[i + 1..]
  }

  /** `deletingPathExtension().lastPathComponent` of a file name: the text
      before the last `.`, or the whole name when there is none. */
  function DeletingPathExtension(name: string): (r: string)
    ensures |r| <= |name| && r == name[..|r|]
  {
    match LastIndexOf(name, '.')
    case None => name
    case Some(i) => name[..i]
  }

  /** A name without `/` appended to any folder is read back intact as the
      last path component: writing and looking up by last component agree. */
  lemma {:induction false} LastPathComponentOfAppended(dir: string, name: string)
    requires '/' !in name && name != ""
    ensures LastPathComponent(AppendingPathComponent(dir, name)) == name
  {
    var p := AppendingPathComponent(dir, name);
    assert p[|dir|] == '/';
    forall j | |dir| < j < |p|
      ensures p[j] != '/'
    {
      assert p[j] == name[j - |dir| - 1];
    }
    var r := LastIndexOf(p, '/');
    assert r.Some?;
    assert r.value == |dir|;
    assert p[|dir| + 1..] == name;
  }

  /** A name without `.` followed by `.ext` splits back into the two parts. */
  lemma {:induction false} ExtensionOfDotted(base: string, ext: string)
    requires '.' !in ext
    ensures PathExtension(base + "." + ext) == ext
    ensures DeletingPathExtension(base + "." + ext) == base
  {
    var p := base + "." + ext;
    assert p[|base|] == '.';
    forall j | |base| < j < |p|
      ensures p[j] != '.'
    {
      assert p[j] == ext[j - |base| - 1];
    }
    var r := LastIndexOf(p, '.');
    assert r.Some? && r.value == |base|;
    assert p[|base| + 1..] == ext;
    assert p[..|base|] == base;
  }

  // ---------------------------------------------------------------------------
  // Substitution
  // ---------------------------------------------------------------------------

  /** `s.replacingOccurrences(of: pat, with: rep)`: a left-to-right scan that
      replaces non-overlapping occurrences. */
  function Replacing(s: string, pat: string, rep: string): string
    requires |pat| > 0
    decreases |s|
  {
    if |s| < |pat| then s
    else if s[..|pat|] == pat then rep + Replacing(s[|pat|..], pat, rep)
    else [s[0]] + Replacing(s[1..], pat, rep)
  }

  /** When the pattern's first character never appears, nothing is replaced. */
  lemma {:induction false} ReplacingAbsent(s: string, pat: string, rep: string)
    requires |pat| > 0 && pat[0] !in s
    ensures Replacing(s, pat, rep) == s
    decreases |s|
  {
    if |s| >= |pat| {
      assert s[..|pat|][0] == s[0] != pat[0];
      ReplacingAbsent(s[1..], pat, rep);
      assert [s[0]] + s[1..] == s;
    }
  }

  /** A string that starts with the pattern has that occurrence replaced. */
  lemma ReplacingPrefix(pat: string, rest: string, rep: string)
    requires |pat| > 0
    ensures Replacing(pat + rest, pat, rep) == rep + Replacing(rest, pat, rep)
  {
    assert (pat + rest)[..|pat|] == pat;
    assert (pat + rest)[|pat|..] == rest;
  }
}

=== FILE: user_store.dfy ===
/** The Core Data store of `UserSaveModel` records (`CoreDataManager.swift`):
    each `User` row holds the model as a JSON string in `info`. The context
    is the list of rows the app sees (pending inserts included); `persisted`
    is what the last successful save wrote. A failing fetch or save is the
    parameter `fetchOk` or `saveOk`. */
module UserStore {
  import opened Wrappers

  datatype UserSaveModel = UserSaveModel(isPro: bool)

  /** A `User` row; `info` is optional, as in the entity. */
  datatype User = User(info: Option<string>)

  datatype Store = Store(context: seq<User>, persisted: seq<User>)

  /** `JSONEncoder().encode(model)` as UTF-8 text. */
  function Encode(m: UserSaveModel): string {
    if m.isPro then "{\"isPro\":true}" else "{\"isPro\":false}"
  }

  /** `JSONDecoder().decode(UserSaveModel.self, from:)`, for the texts the
      encoder writes: a text decodes exactly when it is some model's
      encoding, and then to that model. */
  function Decode(s: string): (r: Option<UserSaveModel>)
    ensures r.Some? ==> Encode(r.value) == s
    ensures r.None? <==> forall m :: Encode(m) != s
  {
    if s == Encode(UserSaveModel(true)) then Some(UserSaveModel(true))
    else if s == Encode(UserSaveModel(false)) then Some(UserSaveModel(false))
    else None
  }

  /** Every model survives an encode/decode round trip. */
  lemma DecodeEncode(m: UserSaveModel)
    ensures Decode(Encode(m)) == Some(m)
  {
  }

  /** The model a row contributes to a fetch, if its `info` decodes. */
  function RowModel(u: User): Option<UserSaveModel> {
    match u.info
    case None => None
    case Some(s) => Decode(s)
  }

  /** `users.compactMap { ... }`: the models of the rows that decode, in row
      order. */
  function DecodedModels(users: seq<User>): (r: seq<UserSaveModel>)
    ensures |r| <= |users|
    ensures forall i :: 0 <= i < |r| ==> exists u :: u in users && RowModel(u) == Some(r[i])
  {
    if |users| == 0 then []
    else
      var rest := DecodedModels(users[1..]);
      assert forall u :: u in users[1..] ==> u in users;
      match RowModel(users[0])
      case None => rest
      case Some(m) => [m] + rest
  }

  /** The compact map misses no row: every row that decodes contributes its
      model. */
  lemma {:induction false} DecodedModelsComplete(users: seq<User>)
    ensures forall i :: 0 <= i < |users| && RowModel(users[i]).Some? ==> RowModel(users[i]).value in DecodedModels(users)
  {
    if |users| > 0 {
      var rest := DecodedModels(users[1..]);
      DecodedModelsComplete(users[1..]);
      assert forall x :: x in rest ==> x in DecodedModels(users);
      forall i | 0 < i < |users| && RowModel(users[i]).Some?
        ensures RowModel(users[i]).value in DecodedModels(users)
      {
        assert users[i] == users[1..][i - 1];
      }
    }
  }

  /** When every row decodes, the models are the rows' models, position by
      position. */
  lemma {:induction false} DecodedModelsAllRows(users: seq<User>)
    requires forall i :: 0 <= i < |users| ==> RowModel(users[i]).Some?
    ensures |DecodedModels(users)| == |users|
    ensures forall i :: 0 <= i < |users| ==> RowModel(users[i]) == Some(DecodedModels(users)[i])
  {
    if |users| > 0 {
      AllRowsDecodeInTail(users);
      DecodedModelsAllRows(users[1..]);
      AllRowsStep(users);
    }
  }

  lemma AllRowsDecodeInTail(users: seq<User>)
    requires |users| > 0 && forall i :: 0 <= i < |users| ==> RowModel(users[i]).Some?
    ensures forall i :: 0 <= i < |users[1..]| ==> RowModel(users[1..][i]).Some?
  {
    forall i | 0 <= i < |users[1..]|
      ensures RowModel(users[1..][i]).Some?
    {
      assert users[1..][i] == users[i + 1];
    }
  }

  /** A first row that decodes puts its model in front of the tail's
      models, position by position. */
  lemma AllRowsStep(users: seq<User>)
    requires |users| > 0 && RowModel(users[0]).Some?
    requires |DecodedModels(users[1..])| == |users| - 1
    requires forall i :: 0 <= i < |users| - 1 ==> RowModel(users[1..][i]) == Some(DecodedModels(users[1..])[i])
    ensures |DecodedModels(users)| == |users|
    ensures forall i :: 0 <= i < |users| ==> RowModel(users[i]) == Some(DecodedModels(users)[i])
  {
    var rest := DecodedModels(users[1..]);
    var head := [RowModel(users[0]).value];
    assert DecodedModels(users) == head + rest;
    forall i | 0 < i < |users|
      ensures RowModel(users[i]) == Some((head + rest)[i])
    {
      assert users[i] == users[1..][i - 1];
      assert (head + rest)[i] == rest[i - 1];
    }
  }

  /** Decoding distributes over concatenation. */
  lemma {:induction false} DecodedModelsAppend(a: seq<User>, b: seq<User>)
    ensures DecodedModels(a + b) == DecodedModels(a) + DecodedModels(b)
  {
    if |a| > 0 {
      assert (a + b)[1..] == a[1..] + b;
      DecodedModelsAppend(a[1..], b);
    } else {
      assert a + b == b;
    }
  }

  /** Row order: the model of row `i`, if it decodes, comes after the
      models of the earlier rows and before those of the later ones. */
  lemma DecodedModelsInRowOrder(users: seq<User>, i: nat)
    requires i < |users|
    ensures DecodedModels(users)
            == DecodedModels(users[..i])
               + (match RowModel(users[i]) case Some(m) => [m] case None => [])
               + DecodedModels(users[i + 1..])
  {
    var pre, row, post := users[..i], [users[i]], users[i + 1..];
    SplitAt(users, i);
    DecodedModelsAppend(pre, row + post);
    DecodedModelsAppend(row, post);
    DecodedSingleRow(users[i]);
  }

  lemma SplitAt(users: seq<User>, i: nat)
    requires i < |users|
    ensures users == users[..i] + ([users[i]] + users[i + 1..])
  {
  }

  /** A single row contributes its model, or nothing. */
  lemma DecodedSingleRow(u: User)
    ensures DecodedModels([u]) == match RowModel(u) case Some(m) => [m] case None => []
  {
    assert [u][1..] == [];
  }

  /** `saveContext()`: saves only when the context has changes; a failed
      save keeps the old persisted rows. */
  function SaveContext(st: Store, saveOk: bool): (r: Store)
    ensures r.context == st.context
    ensures r.persisted == st.persisted || r.persisted == st.context
    ensures saveOk ==> r.persisted == r.context
  {
    if st.context != st.persisted && saveOk then st.(persisted := st.context) else st
  }

  /** `fetchUserModels()`: the decodable models of the context; a failing
      fetch yields none. */
  function Fetch(st: Store, fetchOk: bool): (r: seq<UserSaveModel>)
    ensures !fetchOk ==> r == []
    ensures fetchOk ==> |r| <= |st.context|
    ensures fetchOk ==> forall u :: u in st.context && RowModel(u).Some? ==> RowModel(u).value in r
    ensures fetchOk ==> forall m :: m in r ==> exists u :: u in st.context && RowModel(u) == Some(m)
  {
    if fetchOk then DecodedModelsComplete(st.context); DecodedModels(st.context) else []
  }

  /** `saveUserModel(_:)`: a new row holding the model's encoding, then a
      save. */
  function SaveUserModel(st: Store, m: UserSaveModel, saveOk: bool): (r: Store)
    ensures |r.context| == |st.context| + 1 && r.context[..|st.context|] == st.context
    ensures saveOk ==> r.persisted == r.context
    ensures !saveOk ==> r.persisted == st.persisted
  {
    SaveContext(st.(context := st.context + [User(Some(Encode(m)))]), saveOk)
  }

  /** A saved model is the last one the next fetch returns, after all the
      models fetched before. */
  lemma FetchAfterSave(st: Store, m: UserSaveModel, saveOk: bool)
    ensures Fetch(SaveUserModel(st, m, saveOk), true) == Fetch(st, true) + [m]
  {
    DecodedModelsAppend(st.context, [User(Some(Encode(m)))]);
    DecodeEncode(m);
  }

  /** Whatever order the fetch returns, a save makes it gain exactly the
      saved model. */
  lemma FetchAfterSaveGains(st: Store, m: UserSaveModel, saveOk: bool)
    ensures multiset(Fetch(SaveUserModel(st, m, saveOk), true)) == multiset(Fetch(st, true)) + multiset{m}
  {
    FetchAfterSave(st, m, saveOk);
  }

  /** Row `i` is the first row whose model decodes and matches. */
  predicate FirstMatchingRow(users: seq<User>, matches: UserSaveModel -> bool, i: int) {
    0 <= i < |users| && RowModel(users[i]).Some? && matches(RowModel(users[i]).value)
    && forall j :: 0 <= j < i ==> RowModel(users[j]).None? || !matches(RowModel(users[j]).value)
  }

  /** The row that replaces `u` when its model is updated. */
  function RewrittenRow(u: User, update: UserSaveModel -> UserSaveModel): User
    requires RowModel(u).Some?
  {
    User(Some(Encode(update(RowModel(u).value))))
  }

  /** The rows after the update loop: the first row whose model decodes and
      matches gets the updated model's encoding and every other row, the
      undecodable ones included, stays as it was; `None` when no row
      matches. */
  function UpdatedRows(users: seq<User>, matches: UserSaveModel -> bool,
                       update: UserSaveModel -> UserSaveModel): (r: Option<seq<User>>)
    ensures r.Some? ==> |r.value| == |users|
    ensures r.None? <==> forall m :: m in DecodedModels(users) ==> !matches(m)
    ensures forall i :: FirstMatchingRow(users, matches, i)
                        ==> r == Some(users[..i] + [RewrittenRow(users[i], update)] + users[i + 1..])
  {
    if |users| == 0 then None
    else
      var head := RowModel(users[0]);
      if head.Some? && matches(head.value) then
        MatchingHeadRow(users, matches, update);
        Some([RewrittenRow(users[0], update)] + users[1..])
      else
        match UpdatedRows(users[1..], matches, update)
        case None =>
          NoMatchAfterSkippedRow(users, matches);
          None
        case Some(rest) =>
          SkippedRow(users, matches, update, rest);
          Some([users[0]] + rest)
  }

  /** A matching first row is the first match. */
  lemma MatchingHeadRow(users: seq<User>, matches: UserSaveModel -> bool, update: UserSaveModel -> UserSaveModel)
    requires |users| > 0 && RowModel(users[0]).Some? && matches(RowModel(users[0]).value)
    ensures forall i :: FirstMatchingRow(users, matches, i)
                        ==> [RewrittenRow(users[0], update)] + users[1..] == users[..i] + [RewrittenRow(users[i], update)] + users[i + 1..]
  {
    forall i | FirstMatchingRow(users, matches, i)
      ensures i == 0
    {
      if i > 0 {
        assert 0 < i && !(RowModel(users[0]).None? || !matches(RowModel(users[0]).value));
      }
    }
  }

  /** A first row that does not match makes the first match of the rows
      the first match of the rest, one position earlier. */
  lemma ShiftedMatch(users: seq<User>, matches: UserSaveModel -> bool, i: int)
    requires |users| > 0 && (RowModel(users[0]).None? || !matches(RowModel(users[0]).value))
    requires FirstMatchingRow(users, matches, i)
    ensures i > 0 && FirstMatchingRow(users[1..], matches, i - 1)
  {
    forall j | 0 <= j < i - 1
      ensures RowModel(users[1..][j]).None? || !matches(RowModel(users[1..][j]).value)
    {
      assert users[1..][j] == users[j + 1];
    }
  }

  /** No match in the rest and none in the first row: no match at all. */
  lemma NoMatchAfterSkippedRow(users: seq<User>, matches: UserSaveModel -> bool)
    requires |users| > 0 && (RowModel(users[0]).None? || !matches(RowModel(users[0]).value))
    requires forall i :: !FirstMatchingRow(users[1..], matches, i)
    ensures forall i :: !FirstMatchingRow(users, matches, i)
  {
    forall i | FirstMatchingRow(users, matches, i)
      ensures false
    {
      ShiftedMatch(users, matches, i);
    }
  }

  /** A first row that does not match is kept in front of the rewritten
      rest. */
  lemma SkippedRow(users: seq<User>, matches: UserSaveModel -> bool,
                   update: UserSaveModel -> UserSaveModel, rest: seq<User>)
    requires |users| > 0 && (RowModel(users[0]).None? || !matches(RowModel(users[0]).value))
    requires forall i :: FirstMatchingRow(users[1..], matches, i)
                         ==> rest == users[1..][..i] + [RewrittenRow(users[1..][i], update)] + users[1..][i + 1..]
    ensures forall i :: FirstMatchingRow(users, matches, i)
                        ==> [users[0]] + rest == users[..i] + [RewrittenRow(users[i], update)] + users[i + 1..]
  {
    forall i | FirstMatchingRow(users, matches, i)
      ensures [users[0]] + rest == users[..i] + [RewrittenRow(users[i], update)] + users[i + 1..]
    {
      ShiftedMatch(users, matches, i);
      assert users[1..][..i - 1] == users[1..i];
      assert users[1..][i - 1 + 1..] == users[i + 1..];
      assert users[..i] == [users[0]] + users[1..i];
    }
  }

  /** `updateUserModel(matching:update:)`: the first matching row is
      rewritten and the context saved; no match, or a failing fetch, leaves
      the store as it was. */
  function Update(st: Store, fetchOk: bool, matches: UserSaveModel -> bool,
                  update: UserSaveModel -> UserSaveModel, saveOk: bool): Store
  {
    if !fetchOk then st
    else
      match UpdatedRows(st.context, matches, update)
      case None => st
      case Some(rows) => SaveContext(st.(context := rows), saveOk)
  }

  /** The models-level meaning of an update: replace the first model that
      matches. */
  function UpdateFirst(ms: seq<UserSaveModel>, matches: UserSaveModel -> bool,
                       update: UserSaveModel -> UserSaveModel): (r: seq<UserSaveModel>)
    ensures |r| == |ms|
  {
    if |ms| == 0 then []
    else if matches(ms[0]) then [update(ms[0])] + ms[1..]
    else [ms[0]] + UpdateFirst(ms[1..], matches, update)
  }

  /** Rewriting the rows replaces, among the decoded models, exactly the
      first that matches. */
  lemma {:induction false} DecodedUpdatedRows(users: seq<User>, matches: UserSaveModel -> bool,
                                              update: UserSaveModel -> UserSaveModel)
    ensures DecodedModels(UpdatedRows(users, matches, update).UnwrapOr(users))
            == UpdateFirst(DecodedModels(users), matches, update)
  {
    if |users| > 0 {
      DecodedUpdatedRows(users[1..], matches, update);
      match RowModel(users[0])
      case Some(m) =>
        if matches(m) {
          var rows := [User(Some(Encode(update(m))))] + users[1..];
          DecodeEncode(update(m));
          assert rows[1..] == users[1..];
        } else {
          match UpdatedRows(users[1..], matches, update)
          case None =>
          case Some(rest) => assert ([users[0]] + rest)[1..] == rest;
        }
      case None =>
        match UpdatedRows(users[1..], matches, update)
        case None =>
        case Some(rest) => assert ([users[0]] + rest)[1..] == rest;
    }
  }

  /** A fetch after an update returns the earlier fetch with the first
      matching model replaced by its update; when no fetched model matches,
      nothing is written at all. */
  lemma FetchAfterUpdate(st: Store, matches: UserSaveModel -> bool,
                         update: UserSaveModel -> UserSaveModel, saveOk: bool)
    ensures Fetch(Update(st, true, matches, update, saveOk), true) == UpdateFirst(Fetch(st, true), matches, update)
    ensures (forall m :: m in Fetch(st, true) ==> !matches(m))
            ==> Update(st, true, matches, update, saveOk) == st
  {
    DecodedUpdatedRows(st.context, matches, update);
  }

  /** A failing fetch makes an update a no-op. */
  lemma UpdateNeedsFetch(st: Store, matches: UserSaveModel -> bool,
                         update: UserSaveModel -> UserSaveModel, saveOk: bool)
    ensures Update(st, false, matches, update, saveOk) == st
  {
  }
}

=== FILE: wrappers.dfy ===
/** Optional values and success/failure results, standing in for Swift's
    `Optional` and `Result` in the rest of the model. */
module Wrappers {

  /** Swift's `T?`: `nil` is `None`. */
  datatype Option<+T> = None | Some(value: T) {

    /** The `??` operator: the wrapped value, or `default` when there is none. */
    function UnwrapOr(default: T): T {
      match this
      case Some(v) => v
      case None => default
    }
  }

  /** Swift's `Result<Success, Failure>`. */
  datatype Result<+T, +E> = Success(value: T) | Failure(error: E)
}
